=== FILE: README.md ===
# Sahla credit-to-settlement lifecycle in Dafny

This project models the lending core of Sahla, a Go buy-now-pay-later backend. It covers two engines.

**The credit engine.** A user applies for a credit amount in some currency. The application is stored as PENDING. A credit score then decides it: scores of 650 or more make it APPROVED, lower scores REJECTED. Payments are admitted against an approved application while the SUCCESSFUL payments plus the new one stay within the approved amount. A payment settles through a webhook or a gateway call. Settling splits it into 3, 6 or 12 monthly installments; the last installment absorbs the remainder of the integer division. Installments move between PENDING, PAID and FAILED through their own webhook. The HTTP layer accepts only the currency "DZD" and the payment method "card", and copies stored records into response records.

**The loan engine.** A loan is created PENDING with its whole principal outstanding. Its status is set from a validated string; APPROVED stamps the approval time and ACTIVE stamps the activation time. The repayment schedule has one entry per month of the term, due that many months after activation, and the last entry takes whatever principal remains. A repayment is accepted only on an ACTIVE loan and only up to the outstanding amount. It moves the amount from the outstanding balance to the repaid total. The loan becomes PAID when nothing is outstanding.

Each operation is a pure function from a store (`Ledger.Ledger` or `LoanDomain.LoanBook`) to the next store and a `Result`. Every table is a sequence whose row k holds identifier k + 1, the way an auto-increment key assigns them. Several parameters stand in for inputs the Go code obtains itself:
- the current instant (`time.Now`);
- the random draws of the score generator (`rand.Intn`), each constrained to the range `rand.Intn` returns;
- the credit score used by the decision;
- the payment gateway's verdict.

Files:
- `outcomes.dfy`: the `Option` and `Result` types and the error kinds.
- `credit_domain.dfy`: the application, payment and installment records and the status names.
- `ledger.dfy`: the store, lookups, the settled-total query and the store invariants.
- `installment_plan.dfy`: the tier rule and the installment split.
- `admission_check.dfy`: the credit-limit comparison, both as written with 64-bit `int` and corrected.
- `credit_payment_service.dfy`: the service operations.
- `credit_lifecycle.dfy`: multi-step properties.
- `credit_score.dfy`: the score generators.
- `credit_payment_handler.dfy`: the HTTP gates and response records.
- `credit_scenarios.dfy`: end-to-end runs.
- `loan_domain.dfy`, `loan_service.dfy` and `loan_payment_service.dfy`: the loan engine.

## Model

| member | source | states |
|---|---|---|
| CreditDomain.ParseApplicationStatus | internal/services/credit_payment_service.go:95-101 | A stored application status string is read back as the one status with that name, and only such a status. |
| CreditDomain.ParsePaymentStatus | internal/services/credit_payment_service.go:183-197 | A stored payment status string is read back as the one status with that name, and only such a status. |
| CreditDomain.ParseInstallmentStatus | internal/services/credit_payment_service.go:329-335 | A stored installment status string is read back as the one status with that name, and only such a status. |
| Ledger.ApplicationById | internal/services/credit_payment_service.go:82-86 | An application lookup hits exactly for identifiers 1..n. In a valid store it returns the record carrying that identifier. |
| Ledger.PaymentById | internal/services/credit_payment_service.go:177-181 | A payment lookup hits exactly for identifiers 1..n. In a valid store it returns the record carrying that identifier. |
| Ledger.InstallmentById | internal/services/credit_payment_service.go:293-297 | An installment lookup hits exactly for identifiers 1..n. In a valid store it returns the record carrying that identifier. |
| Ledger.PaymentsOfApplication | internal/services/credit_payment_service.go:374 | The payments fetched for an application are exactly the stored payments that point at it. |
| Ledger.InstallmentsOfPayment | internal/repositories/installment_repository.go:59-63 | Every installment fetched for a payment points at that payment, and there are never more than the stored rows. |
| Ledger.InstallmentsOfPaymentMembers | internal/repositories/installment_repository.go:59-63 | A row is fetched for a payment iff it is stored and points at that payment, whatever its position. |
| Ledger.TotalPaymentsForApplication | internal/services/credit_payment_service.go:373-387 | The total the admission check compares with the limit equals the reference settled total of the application. |
| Ledger.SettledTotalWithinSuccessful | internal/services/credit_payment_service.go:380-384 | With non-negative amounts, an application's settled total is non-negative and at most the SUCCESSFUL amounts of the whole payment table. |
| Ledger.TotalPaymentsIsSettledTotal | internal/services/credit_payment_service.go:373-387 | Filtering by application and then summing only SUCCESSFUL amounts equals the reference settled total: the sum over the whole table of each payment's contribution to that application. |
| Ledger.SuccessfulTotalAppend | internal/services/credit_payment_service.go:380-384 | The SUCCESSFUL-only sum distributes over concatenation. |
| Ledger.SettledTotalAppend | internal/services/credit_payment_service.go:155-156 | Storing a new payment adds exactly its contribution to each application's settled total. |
| Ledger.SettledTotalUpdate | internal/services/credit_payment_service.go:183-194 | Rewriting one payment's status changes a settled total by the old contribution out and the new one in, and by nothing else. |
| Ledger.SettledTotalUnreferenced | internal/services/credit_payment_service.go:373-387 | An application that no payment points at has a settled total of zero. |
| Ledger.InstallmentsOfAppend | internal/services/credit_payment_service.go:356 | The installments fetched for a payment after a batch is stored are the earlier ones followed by the batch's own. |
| Ledger.InstallmentsOfOwnBatch | internal/services/credit_payment_service.go:253-256 | A batch whose rows all point at one payment is returned whole, in order, by that payment's installment query. |
| Ledger.InstallmentsOfUnreferenced | internal/services/credit_payment_service.go:356 | No installment is fetched for a payment that no row points at. |
| InstallmentPlan.GoDiv | internal/services/credit_payment_service.go:250 | Go's integer division truncates toward zero: the remainder has the dividend's sign and is smaller than the divisor. |
| InstallmentPlan.InstallmentCount | internal/services/credit_payment_service.go:278-288 | Amounts below 1000 get 3 installments, amounts of 5000 or more get 12, and all others get 6. |
| InstallmentPlan.ShareOf | internal/services/credit_payment_service.go:250-264 | Every installment but the last is the truncated share. The last one brings the n shares to exactly the amount, and exceeds the share in size by less than n. |
| InstallmentPlan.Schedule | internal/services/credit_payment_service.go:246-276 | The batch has the tier-rule length. Entry i is number i + 1 and due i + 1 calendar months after settlement. Every entry belongs to the payment, is PENDING, and has consecutive fresh identifiers. |
| InstallmentPlan.ScheduleShares | internal/services/credit_payment_service.go:250-264 | Every installment but the last is the truncated share. For a positive amount that is amount / n, and the last is amount / n + amount % n. |
| InstallmentPlan.TotalOfEqualPrefix | internal/services/credit_payment_service.go:253-264 | A run of k installments of the same share sums to k times that share. |
| InstallmentPlan.ScheduleTotal | internal/services/credit_payment_service.go:246-276 | The installments of a settled payment add up exactly to its amount, for every amount. |
| InstallmentPlan.ScheduleBalanced | internal/services/credit_payment_service.go:250-264 | For a positive amount no installment is negative, the last is the largest, and any two differ by less than the installment count. |
| AdmissionCheck.WrapInt64 | internal/services/credit_payment_service.go:148 | A 64-bit sum is the exact sum reduced into the int64 range modulo 2^64, and is the exact sum whenever that fits. |
| AdmissionCheck.ExceedsCreditAsWritten | internal/services/credit_payment_service.go:148 | The test as written is the exact comparison while total + amount fits in 64 bits; past 2^63 - 1 it compares the sum minus 2^64 with the limit. |
| AdmissionCheck.ExceedsCredit | internal/services/credit_payment_service.go:148-153 | A payment is refused iff it exceeds the headroom left under the approved amount. For a non-negative 64-bit total and limit the headroom itself fits in 64 bits, so the test is exact in 64-bit arithmetic. With non-negative operands it admits only payments the as-written test also admits. |
| AdmissionCheck.HeadroomFitsInt64 | internal/services/credit_payment_service.go:148 | With a non-negative total and limit, the headroom fits in 64 bits, and comparing the amount with it is exactly the intended test. |
| AdmissionCheck.AsWrittenDiffersOnOverflow | internal/services/credit_payment_service.go:148 | For a positive amount, the test as written disagrees with the intended one exactly when total + amount exceeds 2^63 - 1, and it then admits the payment. |
| AdmissionCheck.MaxAmountSlipsThrough | internal/services/credit_payment_service.go:148 | With 1 already paid against 10000, an amount of 2^63 - 1 passes the check as written and fails the intended one. |
| CreditPaymentService.CreateCreditApplication | internal/services/credit_payment_service.go:61-77 | A non-positive amount is refused and nothing is stored. Otherwise exactly one row is appended: a PENDING application under a fresh identifier. No existing record changes. |
| CreditPaymentService.ApproveCreditApplication | internal/services/credit_payment_service.go:79-110 | A missing application gives NotFound. Otherwise the application becomes REJECTED iff the score is below 650 and APPROVED iff it is 650 or more; nothing else changes. |
| CreditPaymentService.CreatePayment | internal/services/credit_payment_service.go:123-173 | Refusal reasons are checked in order: non-positive amount, missing application, not APPROVED, settled total plus amount above the approved amount. Each reason is an iff, and a refusal stores nothing. Success happens exactly when none applies; it appends exactly one row, a PENDING payment under a fresh identifier, and leaves every earlier record alone. |
| CreditPaymentService.Settle | internal/services/credit_payment_service.go:183-192 | Settling marks the payment SUCCESSFUL and appends a batch of the tier-rule length. The batch points at the payment and sums to its amount. Applications, other payments and earlier installments stay as they were. |
| CreditPaymentService.HandlePaymentWebhook | internal/services/credit_payment_service.go:174-207 | SUCCESSFUL marks the payment SUCCESSFUL and appends its schedule. FAILED marks it FAILED and adds nothing. Any other string is refused with the store unchanged. A missing payment gives NotFound. Other payments never change. |
| CreditPaymentService.ProcessPayment | internal/services/credit_payment_service.go:210-244 | On acceptance the gateway path does exactly what the SUCCESSFUL webhook does. On refusal it leaves the store as the FAILED webhook would and still reports PaymentFailed. |
| CreditPaymentService.ProcessInstallment | internal/services/credit_payment_service.go:290-318 | The installment is put back to PENDING whatever its status was, and nothing else changes. |
| CreditPaymentService.HandleInstallmentWebhook | internal/services/credit_payment_service.go:320-345 | The call succeeds iff the status is PAID or FAILED, and stores exactly that status. Any other string is refused with the store unchanged, and other installments never change. |
| CreditPaymentService.GetPaymentDetails | internal/services/credit_payment_service.go:347-372 | Fails iff the payment is missing. Otherwise returns the stored payment with the installments that point at it (see `Ledger.InstallmentsOfPaymentMembers`). |
| CreditLifecycle.TotalAmountAppend | internal/services/credit_payment_service.go:253-264 | Installment sums distribute over concatenation. |
| CreditLifecycle.CreateApplicationKeepsInvariants | internal/services/credit_payment_service.go:61-77 | Intake keeps the store well formed, and keeps every settled total within its application's amount. |
| CreditLifecycle.ApprovalKeepsInvariants | internal/services/credit_payment_service.go:79-110 | Deciding an application keeps the store well formed and keeps every settled total within its limit. |
| CreditLifecycle.AdmissionKeepsInvariants | internal/services/credit_payment_service.go:123-173 | Admitting a payment keeps the store well formed and changes no settled total, because the new payment is PENDING. |
| CreditLifecycle.SettleKeepsValid | internal/services/credit_payment_service.go:246-276 | Settling keeps identifiers in step with positions, and every new installment points at an existing payment. |
| CreditLifecycle.PaymentEventsKeepValid | internal/services/credit_payment_service.go:174-244 | Both payment webhooks and the gateway path keep the store well formed. |
| CreditLifecycle.InstallmentEventsKeepValid | internal/services/credit_payment_service.go:290-345 | Installment processing and the installment webhook keep the store well formed. |
| CreditLifecycle.FailureKeepsLimits | internal/services/credit_payment_service.go:193-194 | A FAILED delivery never raises a settled total, so it keeps every total within its limit. |
| CreditLifecycle.SettlementWithinHeadroomKeepsLimits | internal/services/credit_payment_service.go:183-192 | Settling a payment that still fits under its application's remaining headroom keeps every total within its limit. |
| CreditLifecycle.AdmitThenSettleKeepsLimits | internal/services/credit_payment_service.go:142-192 | A payment admitted and settled before any other admission keeps every settled total within its application's amount. |
| CreditLifecycle.InterleavedAdmissionsOvershoot | internal/services/credit_payment_service.go:142-156 | Two 600 payments admitted against a 1000 limit before either settles both pass the check. Settling both brings the settled total to 1200, past the limit. |
| CreditLifecycle.FirstSettlementSchedule | internal/services/credit_payment_service.go:183-192 | The first SUCCESSFUL delivery gives the payment exactly the tier-rule number of PENDING installments, numbered from 1, due monthly, summing to its amount. |
| CreditLifecycle.RepeatedSettlementDuplicatesBatch | internal/services/credit_payment_service.go:183-192 | A second SUCCESSFUL delivery is accepted and appends a second batch, so the payment owes twice its amount over twice the installments. |
| CreditLifecycle.ConflictingDeliveryOverwrites | internal/services/credit_payment_service.go:183-197 | FAILED after SUCCESSFUL is accepted: the payment ends FAILED while the first batch stays. |
| CreditLifecycle.ApprovalCanBeReversed | internal/services/credit_payment_service.go:79-103 | An APPROVED application decided again with a low score becomes REJECTED. |
| CreditScore.BandsPartitionScores | internal/utils/random_credit_score.go:14-20 | The five bands are non-empty, adjacent, and run from 300 to 850. |
| CreditScore.BandsCoverExactly | internal/utils/random_credit_score.go:14-20 | A score lies in some band iff it is in 300..850, and it never lies in two bands. |
| CreditScore.RandomCreditScore | internal/utils/random_credit_score.go:23-35 | The uniform score lies in 300..850. |
| CreditScore.RandomCreditScoreIsOnto | internal/utils/random_credit_score.go:28-32 | Every score in 300..850 comes from exactly one draw. |
| CreditScore.WeightsTotal | internal/utils/random_credit_score.go:44-56 | The weights total 100, so the band draw ranges over 0..99. |
| CreditScore.SelectFrom | internal/utils/random_credit_score.go:62-80 | The loop picks the band at the first position whose weight exceeds what is left of the draw; the result is always one of the five bands or the zero-value range, and the zero value when no position is left. |
| CreditScore.SelectedRange | internal/utils/random_credit_score.go:59-80 | A draw selects a band iff it is below 100, and the zero-value range iff it is 100 or more; a negative draw, which `rand.Intn` never returns, selects Poor. |
| CreditScore.SelectionByCumulativeWeight | internal/utils/random_credit_score.go:59-80 | Draws 0..9 select Poor, 10..34 Fair, 35..69 Good, 70..89 Very Good and 90..99 Excellent, each as an iff. Every draw selects a band, so the zero-value range is never used. |
| CreditScore.WeightedRandomCreditScore | internal/utils/random_credit_score.go:39-86 | The weighted score lies inside the selected band, and hence in 300..850. |
| CreditPaymentHandler.IsValidCurrency | internal/handlers/credit_payment_handler.go:74-77 | The one accepted currency has the three letters the request's binding tag asks for. |
| CreditPaymentHandler.IsValidPaymentMethod | internal/handlers/credit_payment_handler.go:140-143 | The one accepted payment method is not the empty string the binding tag would treat as missing. |
| CreditPaymentHandler.ApplicationResponseOf | internal/handlers/credit_payment_handler.go:286-295 | The application response copies every field: reading it back gives the stored application. |
| CreditPaymentHandler.InstallmentResponsesRoundTrip | internal/handlers/credit_payment_handler.go:307-320 | The installment entries read back to exactly the installments they were built from, one per installment and in the same order. |
| CreditPaymentHandler.PaymentResponseOf | internal/handlers/credit_payment_handler.go:297-323 | The payment response reads back to exactly the payment and installments it was built from. |
| CreditPaymentHandler.CreateCreditApplication | internal/handlers/credit_payment_handler.go:36-77 | A currency other than DZD is refused before the service runs, with the store unchanged. Otherwise the service's outcome is passed on, and a success response reads back to the stored PENDING application. |
| CreditPaymentHandler.HandlerGatesAcceptOnlyDzdAndCard | internal/handlers/credit_payment_handler.go:53-121 | For every request and store, the application endpoint answers UnsupportedCurrency iff the currency is not DZD, and the payment endpoint answers UnsupportedPaymentMethod iff the method is not card. |
| CreditPaymentHandler.CreatePayment | internal/handlers/credit_payment_handler.go:100-143 | A payment method other than card is refused before the service runs, with the store unchanged. Otherwise the service's outcome is passed on, and a success response reads back to the stored PENDING payment with no installments. |
| CreditPaymentHandler.GetPaymentDetails | internal/handlers/credit_payment_handler.go:145-165 | Fails iff the payment is missing. Otherwise the response reads back to the service's payment details. |
| CreditScenarios.WeightedScoreDecision | internal/services/credit_payment_service.go:112-122 | With the weighted generator as the score source, an application is approved iff the band draw is 35 or more, or it is Fair (10..34) with a score of at least 650 inside the band. |
| CreditScenarios.ApplyApproveAdmit | internal/services/credit_payment_service.go:61-173 | Applying for 10000, approving with a score of 700 and paying 4000 all succeed, leaving one APPROVED application and one PENDING payment of 4000. |
| CreditScenarios.SettleThenExceedLimit | internal/services/credit_payment_service.go:123-207 | Apply for 10000, approve, and pay and settle 4000: the payment gets 6 monthly installments numbered 1 to 6 that sum to 4000. A further 7000 is then refused as insufficient credit and stores nothing. |
| CreditScenarios.HandlerRefusesOtherCurrencies | internal/handlers/credit_payment_handler.go:53-57 | A USD application is refused at the HTTP layer with nothing stored, while the same request in DZD goes through. |
| LoanDomain.LoanById | modules/credit/service/loan_service.go:94-97 | A loan lookup hits exactly for identifiers 1..n; a miss is the not-found error returned before any change. |
| LoanService.NewLoan | modules/credit/service/loan_service.go:29-37 | A new loan is PENDING. Both terms equal the requested term, the whole principal is outstanding, nothing is repaid, and there is no approval or activation time. |
| LoanService.ListsStatusFinds | modules/credit/service/loan_service.go:158-163 | The validation loop returns true iff some listed status has the given name. |
| LoanService.IsValidLoanStatus | modules/credit/service/loan_service.go:148-164 | A status string is valid iff it names one of the six loan statuses. |
| LoanService.ParseLoanStatus | modules/credit/service/loan_service.go:99-102 | A string converts to a status iff it is valid, and the status carries that name. |
| LoanService.LoanStatusRoundTrip | modules/credit/service/loan_service.go:148-164 | Every loan status is valid under its own name and converts back to itself. |
| LoanService.UpdateLoanStatus | modules/credit/service/loan_service.go:93-115 | A missing loan gives NotFound, and an invalid string gives InvalidLoanStatus with the book unchanged. Otherwise the status is set. APPROVED stamps the approval time, ACTIVE stamps the activation time, any other status keeps both times, and no other field or loan changes. |
| LoanService.PlanFrom | modules/credit/service/loan_service.go:122-143 | From entry i on, the loop emits one PENDING entry per remaining month, numbered and dated by month, with amount equal to principal part. Every entry but the last is the fixed monthly share, and the entries sum to the principal not yet scheduled. |
| LoanService.GenerateRepaymentPlan | modules/credit/service/loan_service.go:117-146 | The schedule has one entry per month of the term, numbered 1..term and due that many months after activation, and it sums to the principal. |
| LoanService.RepaymentSharesEqual | modules/credit/service/loan_service.go:119-127 | Over exact arithmetic the last, adjusted entry equals every other entry, amount / term. |
| LoanService.CreateLoan | modules/credit/service/loan_service.go:26-41 | Creation always succeeds and appends exactly one row: the initial-state loan under a fresh identifier. Every other loan, schedule row and payment stays as it was. |
| LoanService.RepaymentPlanAsWritten | modules/credit/service/loan_service.go:117-146 | Schedule generation crashes on a nil dereference exactly when the term is at least one month and the loan has no activation time. |
| LoanService.CreateLoanAsWritten | modules/credit/service/loan_service.go:26-49 | The loan row is stored before schedule generation runs, whatever happens next. |
| LoanService.CreateLoanAsWrittenPanics | modules/credit/service/loan_service.go:34-44 | Creation as written crashes iff the term is at least one month. When it crashes, the loan is stored and no schedule rows are. |
| LoanService.ActivationEnablesSchedule | modules/credit/service/loan_service.go:106-112 | Setting a loan ACTIVE gives it an activation time, after which its schedule covers the full principal. |
| LoanService.UpdateLoanStatusKeepsBalanced | modules/credit/service/loan_service.go:93-115 | Status changes keep outstanding plus repaid equal to the principal for every loan. |
| LoanService.CreateLoanKeepsBalanced | modules/credit/service/loan_service.go:29-37 | A new loan starts balanced, so creation keeps every loan balanced. |
| LoanPaymentService.Repaid | modules/credit/service/payment_service.go:52-57 | A repayment moves its amount from outstanding to repaid and keeps their sum. The loan becomes PAID iff nothing is outstanding, and no other field changes. |
| LoanPaymentService.MakePayment | modules/credit/service/payment_service.go:26-64 | Refusals, each an iff and each leaving the book unchanged: a missing loan, a loan that is not ACTIVE, an amount above the outstanding balance. Paying exactly the balance is allowed. On success a COMPLETED payment is appended, the paid loan is exactly `Repaid` of the old one (only its balances and status change), the balances move by the amount, the outstanding stays non-negative, and the loan is PAID iff nothing is outstanding (else still ACTIVE). |
| LoanPaymentService.MakePaymentKeepsBalanced | modules/credit/service/payment_service.go:52-57 | A repayment keeps outstanding plus repaid equal to the principal for every loan. |
| LoanPaymentService.RepaidNeverExceedsPrincipal | modules/credit/service/payment_service.go:36-57 | Starting from a balanced loan with a non-negative outstanding amount, the repaid total never exceeds the principal after a payment. |
| LoanPaymentService.PayoffClosesLoan | modules/credit/service/payment_service.go:32-57 | Paying exactly the outstanding balance makes the loan PAID, and any later payment is refused as not active. |
| LoanPaymentService.NegativePaymentAccepted | modules/credit/service/payment_service.go:32-57 | A negative amount on an active loan is accepted as COMPLETED and increases what is owed. |

## Where the code and the documented intent differ

The model follows the code in each case below. The lemma named shows the behaviour.
- A decided application can be decided again (`CreditLifecycle.ApprovalCanBeReversed`). No check restricts the decision to PENDING applications.
- The payment webhooks are neither idempotent nor checked for conflicts. A repeated SUCCESSFUL delivery creates a second installment batch (`CreditLifecycle.RepeatedSettlementDuplicatesBatch`). A FAILED delivery after a SUCCESSFUL one is accepted (`CreditLifecycle.ConflictingDeliveryOverwrites`).
- The admission check and the creation of the payment are separate steps, and the check counts only SUCCESSFUL payments. Admitted payments still PENDING can therefore settle past the limit together (`CreditLifecycle.InterleavedAdmissionsOvershoot`).
- The HTTP layer accepts only "DZD", so an application in "USD" is refused before it reaches the service (`CreditScenarios.HandlerRefusesOtherCurrencies`). The service itself accepts any currency, and `CreditScenarios.SettleThenExceedLimit` runs there with "USD".
- The request records declare `binding:` and `validate:` constraints, such as a minimum amount of 1, a three-letter currency and a positive loan payment. The credit handler's validator reads only `validate:` tags, and the loan handlers call no validator. None of these constraints is enforced, so none is modelled (`LoanPaymentService.NegativePaymentAccepted`).

## Left out

- Persistence failures: every repository call succeeds here. The error paths that wrap a database error are not modelled. In particular `LoanService.CreateLoanAsWritten` assumes the loan row at modules/credit/service/loan_service.go:39 is stored; if the repository refuses it, creation returns that error at lines 39-41 and the schedule is never generated.
- Logging, `handleError`'s mapping of errors to HTTP codes, request binding, and `parseID`: these do not change the stored records.
- The goroutine and five-second sleep at the end of `CreatePayment` (internal/services/credit_payment_service.go:163-169) that simulate the gateway's payment webhook: that webhook is modelled as its own operations, `CreditPaymentService.HandlePaymentWebhook` and `CreditPaymentService.ProcessPayment`.
- The goroutine and five-second sleep in `ProcessInstallment` that simulate a gateway webhook: the webhook is modelled as its own operation, `CreditPaymentService.HandleInstallmentWebhook`.
- The payment gateway, the clock and the random source: they are parameters (`gatewayAccepts`, `now`, the draws).
- The wiring from `performCreditCheck` to the generator: `ApproveCreditApplication` takes the score as a parameter, and `CreditScenarios.WeightedScoreDecision` connects the two.
- Seeding of the random generator: it has no effect on the range of the draws.
- Formatting of due dates as "2006-01-02" strings: a due date is kept as a month offset from the settlement instant.
- Loan fields that the core neither reads nor writes (the universal id, user, next payment date, fees, credit score impact), and the payment's transaction id and fees. `CreateLoan` does not copy the request's user id into the loan, so the model does not carry it either.
- Loan lookups by id, universal id or user, payment listing by loan, and the DTO converters: these are read-only queries outside the lifecycle.
- The machine-learning scoring service and authentication: they are outside the credit and loan core.
- CreditPaymentService.CreatePayment: compares the settled total plus the amount with the limit on unbounded integers, which is the corrected test. The 64-bit wrap of the comparison as written is modelled separately, by `AdmissionCheck.ExceedsCreditAsWritten`.
- Ledger.TotalPaymentsIsSettledTotal: sums on unbounded integers. The 64-bit wrap of the summing loop itself is not modelled, although it is reachable: a payment admitted through the wrap at line 148 (`AdmissionCheck.MaxAmountSlipsThrough`) and then settled, or several admissions settled together past a large limit (`CreditLifecycle.InterleavedAdmissionsOvershoot`), can push the SUCCESSFUL total past 2^63 - 1. Only the exact sum is modelled.
- Ledger.InstallmentsOfPayment: returns the rows in table order. The repository query has no ORDER BY, so the database may return them in any order; `Ledger.InstallmentsOfPaymentMembers` states which rows are returned independently of order, but `Ledger.InstallmentsOfOwnBatch`, `CreditLifecycle.FirstSettlementSchedule` and `CreditScenarios.SettleThenExceedLimit` state positions (entry i is number i + 1, due i + 1 months later) and so depend on the table order the model assumes.
- LoanPaymentService.MakePayment: money is exact `real`, so the equality test against zero that marks a loan PAID is not subject to `float64` rounding. A payoff whose float arithmetic leaves a tiny residue would stay ACTIVE in Go.
- LoanService.GenerateRepaymentPlan: exact reals make every entry equal. In Go the last entry absorbs the floating-point rounding of the others. A term of zero, which in Go divides by zero to an infinite share, gives an empty schedule here, as the Go loop does.

## Findings

| source | as written | input that shows it | evidently intended | confidence | as-written member | corrected member |
|---|---|---|---|---|---|---|
| internal/services/credit_payment_service.go:148 | `totalPayments+payment.Amount > creditApp.Amount` is computed in 64-bit `int`; a large amount makes the sum wrap negative, and the check passes | an approved application of 10000 with one SUCCESSFUL payment of 1, then a payment request of 9223372036854775807 | refuse any payment larger than the headroom `creditApp.Amount - totalPayments`, which cannot overflow for non-negative totals | medium, not executed | AdmissionCheck.ExceedsCreditAsWritten (shown by AdmissionCheck.AsWrittenDiffersOnOverflow and AdmissionCheck.MaxAmountSlipsThrough) | AdmissionCheck.ExceedsCredit, whose contract states the 64-bit headroom test, used by CreditPaymentService.CreatePayment |
| modules/credit/service/loan_service.go:35-44 | `CreateLoan` stores a loan with `ActivatedAt: nil` and then calls `generateRepaymentPlan`, whose first iteration calls `loan.ActivatedAt.AddDate` (line 132) on the nil pointer | any create-loan request with a term of 1 or more months, which is every request the DTO's `gt=0` tag describes, provided the loan row is stored first (persistence is taken to succeed, see Left out; the repository may instead refuse the row, for example if the `Loan` schema does not resolve its `User` association) | the loan is stored without a schedule; a schedule can be computed once the loan has an activation time | medium, not executed | LoanService.CreateLoanAsWritten (shown by LoanService.CreateLoanAsWrittenPanics) | LoanService.CreateLoan, which stores no schedule, and LoanService.GenerateRepaymentPlan, which requires an activation time; LoanService.ActivationEnablesSchedule shows the schedule can be computed once the loan is ACTIVE |

=== FILE: admission_check.dfy ===
/** The credit-limit comparison that admits or refuses a payment, and how
    Go's 64-bit `int` arithmetic changes it.

    `CreatePayment` refuses a payment when the SUCCESSFUL total plus the new
    amount exceeds the approved amount. Written as `total + amount > limit`
    on 64-bit integers, the sum wraps past 2^63 - 1 and turns negative, so a
    huge amount passes the check. Comparing the amount with the headroom
    `limit - total` instead keeps every intermediate value in range. */
module AdmissionCheck {
  const MinInt64: int := -0x8000_0000_0000_0000
  const MaxInt64: int := 0x7FFF_FFFF_FFFF_FFFF
  const Modulus64: int := 0x1_0000_0000_0000_0000

  predicate IsInt64(x: int)
  {
    MinInt64 <= x <= MaxInt64
  }

  /** Two's-complement wrap-around of an exact integer to 64 bits. */
  function WrapInt64(x: int): (w: int)
    ensures IsInt64(w)
    ensures (w - x) % Modulus64 == 0
    ensures IsInt64(x) ==> w == x
  {
    (x - MinInt64) % Modulus64 + MinInt64
  }

  /** The refusal test as the service writes it: the sum is computed in
      64-bit arithmetic before it is compared. It is the exact comparison
      while the sum fits in 64 bits; a sum past 2^63 - 1 wraps negative and
      is compared as such. */
  function ExceedsCreditAsWritten(total: int, amount: int, limit: int): (refused: bool)
    requires IsInt64(total) && IsInt64(amount) && IsInt64(limit)
    ensures IsInt64(total + amount) ==> (refused <==> total + amount > limit)
    ensures total + amount > MaxInt64 ==> (refused <==> total + amount - Modulus64 > limit)
  {
    WrapInt64(total + amount) > limit
  }

  /** The refusal test as intended: the payment does not fit in the headroom
      the SUCCESSFUL payments leave under the approved amount. For a
      non-negative total and limit on 64 bits, that headroom is itself a
      64-bit value, so the test stays exact in Go's arithmetic, and it
      admits only payments the as-written test admits as well. */
  function ExceedsCredit(total: int, amount: int, limit: int): (refused: bool)
    ensures refused <==> amount > limit - total
    ensures IsInt64(total) && IsInt64(limit) && 0 <= total && 0 <= limit ==>
      && IsInt64(limit - total)
      && (refused <==> amount > WrapInt64(limit - total))
    ensures IsInt64(total) && IsInt64(amount) && IsInt64(limit) && 0 <= total && 0 <= amount && !refused ==>
      !ExceedsCreditAsWritten(total, amount, limit)
  {
    total + amount > limit
  }

  /** With a non-negative total and limit, the headroom `limit - total`
      never leaves the 64-bit range, so comparing the amount with it on
      64-bit integers gives exactly the intended test. */
  lemma HeadroomFitsInt64(total: int, amount: int, limit: int)
    requires IsInt64(total) && IsInt64(amount) && IsInt64(limit)
    requires 0 <= total && 0 <= limit
    ensures IsInt64(limit - total)
    ensures ExceedsCredit(total, amount, limit) <==> amount > WrapInt64(limit - total)
  {
  }

  /** For a positive amount against a non-negative total and limit, the
      as-written test disagrees with the intended one exactly when the sum
      overflows; it then lets the payment through. */
  lemma AsWrittenDiffersOnOverflow(total: int, amount: int, limit: int)
    requires IsInt64(total) && IsInt64(amount) && IsInt64(limit)
    requires 0 <= total && 0 <= limit && 0 < amount
    ensures ExceedsCreditAsWritten(total, amount, limit) != ExceedsCredit(total, amount, limit)
            <==> total + amount > MaxInt64
    ensures total + amount > MaxInt64 ==> !ExceedsCreditAsWritten(total, amount, limit)
  {
  }

  /** The concrete case: with 1 already paid against a limit of 10000, an
      amount of 2^63 - 1 is admitted by the as-written test. */
  lemma MaxAmountSlipsThrough()
    ensures ExceedsCredit(1, MaxInt64, 10000)
    ensures !ExceedsCreditAsWritten(1, MaxInt64, 10000)
  {
  }
}

=== FILE: credit_domain.dfy ===
/** Records of the credit engine: credit applications, payments drawn against
    them, and the installments a settled payment is split into.

    The Go records keep their statuses as plain strings that are only ever
    assigned the literals below; here each status set is a datatype and
    `Name()` gives the string stored and sent on the wire. Instants are an
    abstract `Timestamp` supplied by the caller, and a due date is a whole
    number of calendar months after an origin instant, which is what
    `AddDate(0, i, 0)` computes. */
module CreditDomain {
  import opened Outcomes

  type Timestamp = int

  datatype DueDate = MonthsAfter(origin: Timestamp, months: int)

  datatype ApplicationStatus = Pending | Approved | Rejected
  {
    function Name(): string
    {
      match this
      case Pending => "PENDING"
      case Approved => "APPROVED"
      case Rejected => "REJECTED"
    }
  }

  datatype PaymentStatus = Pending | Successful | Failed
  {
    function Name(): string
    {
      match this
      case Pending => "PENDING"
      case Successful => "SUCCESSFUL"
      case Failed => "FAILED"
    }
  }

  datatype InstallmentStatus = Pending | Paid | Failed
  {
    function Name(): string
    {
      match this
      case Pending => "PENDING"
      case Paid => "PAID"
      case Failed => "FAILED"
    }
  }

  /** Reads back a stored application status string. */
  function ParseApplicationStatus(s: string): (r: Option<ApplicationStatus>)
    ensures r.Some? ==> r.value.Name() == s
    ensures forall st: ApplicationStatus :: st.Name() == s ==> r == Some(st)
  {
    if s == "PENDING" then Some(ApplicationStatus.Pending)
    else if s == "APPROVED" then Some(ApplicationStatus.Approved)
    else if s == "REJECTED" then Some(ApplicationStatus.Rejected)
    else None
  }

  /** Reads back a stored payment status string. */
  function ParsePaymentStatus(s: string): (r: Option<PaymentStatus>)
    ensures r.Some? ==> r.value.Name() == s
    ensures forall st: PaymentStatus :: st.Name() == s ==> r == Some(st)
  {
    if s == "PENDING" then Some(PaymentStatus.Pending)
    else if s == "SUCCESSFUL" then Some(PaymentStatus.Successful)
    else if s == "FAILED" then Some(PaymentStatus.Failed)
    else None
  }

  /** Reads back a stored installment status string. */
  function ParseInstallmentStatus(s: string): (r: Option<InstallmentStatus>)
    ensures r.Some? ==> r.value.Name() == s
    ensures forall st: InstallmentStatus :: st.Name() == s ==> r == Some(st)
  {
    if s == "PENDING" then Some(InstallmentStatus.Pending)
    else if s == "PAID" then Some(InstallmentStatus.Paid)
    else if s == "FAILED" then Some(InstallmentStatus.Failed)
    else None
  }

  datatype CreditApplication = CreditApplication(
    id: nat,
    userId: string,
    amount: int,
    currency: string,
    status: ApplicationStatus,
    createdAt: Timestamp)

  /** A payment row. Its installments live in their own table and are joined
      in by `PaymentDetails`. */
  datatype Payment = Payment(
    id: nat,
    creditApplicationId: nat,
    userId: string,
    amount: int,
    currency: string,
    paymentMethod: string,
    status: PaymentStatus,
    createdAt: Timestamp)

  datatype Installment = Installment(
    id: nat,
    paymentId: nat,
    number: int,
    dueDate: DueDate,
    amount: int,
    status: InstallmentStatus,
    createdAt: Timestamp)

  /** A payment together with its installments, as returned by payment lookups. */
  datatype PaymentDetails = PaymentDetails(payment: Payment, installments: seq<Installment>)

  /** Sum of the amounts of a batch of installments. */
  function TotalAmount(batch: seq<Installment>): int
  {
    if |batch| == 0 then 0 else TotalAmount(batch[..|batch| - 1]) + batch[|batch| - 1].amount
  }
}

=== FILE: credit_lifecycle.dfy ===
/** Properties of the credit engine that span several steps: which operations
    keep the ledger well formed, when the sum of settled payments stays within
    an application's amount and when it does not, and what repeated or
    conflicting webhook deliveries do. */
module CreditLifecycle {
  import opened Outcomes
  import opened CreditDomain
  import opened Ledger
  import opened InstallmentPlan
  import opened CreditPaymentService

  lemma {:induction false} TotalAmountAppend(xs: seq<Installment>, ys: seq<Installment>)
    ensures TotalAmount(xs + ys) == TotalAmount(xs) + TotalAmount(ys)
    decreases |ys|
  {
    if |ys| == 0 {
      assert xs + ys == xs;
    } else {
      assert (xs + ys)[..|xs + ys| - 1] == xs + ys[..|ys| - 1];
      TotalAmountAppend(xs, ys[..|ys| - 1]);
    }
  }

  /** Intake keeps the ledger well formed and, since the new application has
      no payments yet, keeps every settled total within its limit. */
  lemma CreateApplicationKeepsInvariants(l: Ledger, userId: string, amount: int, currency: string, now: Timestamp)
    requires Valid(l)
    ensures var r := CreateCreditApplication(l, userId, amount, currency, now);
      Valid(r.ledger) && (WithinLimits(l) ==> WithinLimits(r.ledger))
  {
    var r := CreateCreditApplication(l, userId, amount, currency, now);
    if amount > 0 {
      var n := |l.applications|;
      SettledTotalUnreferenced(l.payments, n + 1);
      assert r.ledger.applications == l.applications + [r.ledger.applications[n]];
    }
  }

  /** Deciding an application changes neither identifiers nor amounts, so it
      keeps both invariants. */
  lemma ApprovalKeepsInvariants(l: Ledger, id: nat, score: int)
    requires Valid(l)
    ensures var r := ApproveCreditApplication(l, id, score);
      Valid(r.ledger) && (WithinLimits(l) ==> WithinLimits(r.ledger))
  {
  }

  /** An admitted payment is PENDING, so admission never changes a settled
      total and keeps both invariants. */
  lemma AdmissionKeepsInvariants(l: Ledger, appId: nat, userId: string, amount: int, currency: string,
                                 paymentMethod: string, now: Timestamp)
    requires Valid(l)
    ensures var r := CreatePayment(l, appId, userId, amount, currency, paymentMethod, now);
      Valid(r.ledger) && (WithinLimits(l) ==> WithinLimits(r.ledger))
  {
  }

  /** Settling payment row `id` keeps the ledger well formed: the new batch is
      numbered after the existing rows and points at an existing payment. */
  lemma SettleKeepsValid(l: Ledger, id: nat, now: Timestamp)
    requires Valid(l)
    requires 1 <= id <= |l.payments|
    ensures Valid(Settle(l, id, now))
  {
  }

  /** Every webhook delivery and gateway outcome keeps the ledger well formed. */
  lemma PaymentEventsKeepValid(l: Ledger, id: nat, status: string, gatewayAccepts: bool, now: Timestamp)
    requires Valid(l)
    ensures Valid(HandlePaymentWebhook(l, id, status, now).ledger)
    ensures Valid(ProcessPayment(l, id, gatewayAccepts, now).ledger)
  {
  }

  /** Installment status changes keep the ledger well formed. */
  lemma InstallmentEventsKeepValid(l: Ledger, id: nat, status: string)
    requires Valid(l)
    ensures Valid(HandleInstallmentWebhook(l, id, status).ledger)
    ensures Valid(ProcessInstallment(l, id).ledger)
  {
  }

  /** Marking a payment FAILED only ever removes it from a settled total, so
      a FAILED delivery or a gateway refusal keeps every limit. */
  lemma FailureKeepsLimits(l: Ledger, id: nat, now: Timestamp)
    requires WithinLimits(l)
    requires forall k :: 0 <= k < |l.payments| ==> l.payments[k].amount > 0
    ensures WithinLimits(HandlePaymentWebhook(l, id, "FAILED", now).ledger)
    ensures WithinLimits(ProcessPayment(l, id, false, now).ledger)
  {
    if PaymentById(l, id).Some? {
      var p := l.payments[id - 1];
      var l' := HandlePaymentWebhook(l, id, "FAILED", now).ledger;
      assert l'.payments == l.payments[id - 1 := p.(status := PaymentStatus.Failed)];
      forall app | app in l'.applications
        ensures SettledTotal(l'.payments, app.id) <= app.amount
      {
        SettledTotalUpdate(l.payments, id - 1, p.(status := PaymentStatus.Failed), app.id);
      }
    }
  }

  /** A SUCCESSFUL delivery keeps every limit when the payment was
      already counted or still fits within its application's headroom. */
  lemma SettlementWithinHeadroomKeepsLimits(l: Ledger, id: nat, now: Timestamp)
    requires Valid(l) && WithinLimits(l)
    requires PaymentById(l, id).Some?
    requires var p := PaymentById(l, id).value;
      || p.status == PaymentStatus.Successful
      || SettledTotal(l.payments, p.creditApplicationId) + p.amount
           <= ApplicationById(l, p.creditApplicationId).value.amount
    ensures WithinLimits(HandlePaymentWebhook(l, id, "SUCCESSFUL", now).ledger)
  {
    var p := l.payments[id - 1];
    var l' := HandlePaymentWebhook(l, id, "SUCCESSFUL", now).ledger;
    assert l'.payments == l.payments[id - 1 := p.(status := PaymentStatus.Successful)];
    forall app | app in l'.applications
      ensures SettledTotal(l'.payments, app.id) <= app.amount
    {
      SettledTotalUpdate(l.payments, id - 1, p.(status := PaymentStatus.Successful), app.id);
      if app.id == p.creditApplicationId && p.status != PaymentStatus.Successful {
        var k :| 0 <= k < |l.applications| && l.applications[k] == app;
        assert ApplicationById(l, p.creditApplicationId).value == app;
      }
    }
  }

  /** Admitting a payment and settling it before anything else happens keeps
      every settled total within its limit: the admission check is the
      headroom check, provided nothing settles in between. */
  lemma AdmitThenSettleKeepsLimits(l: Ledger, appId: nat, userId: string, amount: int, currency: string,
                                   paymentMethod: string, created: Timestamp, settled: Timestamp)
    requires Valid(l) && WithinLimits(l)
    requires CreatePayment(l, appId, userId, amount, currency, paymentMethod, created).result.Ok?
    ensures var r := CreatePayment(l, appId, userId, amount, currency, paymentMethod, created);
      WithinLimits(HandlePaymentWebhook(r.ledger, r.result.value, "SUCCESSFUL", settled).ledger)
  {
    var r := CreatePayment(l, appId, userId, amount, currency, paymentMethod, created);
    var id := r.result.value;
    AdmissionKeepsInvariants(l, appId, userId, amount, currency, paymentMethod, created);
    var p := r.ledger.payments[id - 1];
    assert r.ledger.payments == l.payments + [p];
    TotalPaymentsIsSettledTotal(l.payments, appId);
    SettledTotalAppend(l.payments, p, appId);
    SettlementWithinHeadroomKeepsLimits(r.ledger, id, settled);
  }

  /** Two payments admitted against the same 1000-unit application before
      either settles both pass the check, and settling both exceeds the
      limit: the check-then-create gap lets SUCCESSFUL payments overshoot. */
  lemma InterleavedAdmissionsOvershoot()
    ensures var l0 := Ledger([CreditApplication(1, "u", 1000, "DZD", ApplicationStatus.Approved, 0)], [], []);
      var a := CreatePayment(l0, 1, "u", 600, "DZD", "card", 1);
      var b := CreatePayment(a.ledger, 1, "u", 600, "DZD", "card", 2);
      var s1 := HandlePaymentWebhook(b.ledger, 1, "SUCCESSFUL", 3);
      var s2 := HandlePaymentWebhook(s1.ledger, 2, "SUCCESSFUL", 4);
      && Valid(l0) && WithinLimits(l0)
      && a.result == Ok(1) && b.result == Ok(2)
      && s1.result == Ok(()) && s2.result == Ok(())
      && SettledTotal(s2.ledger.payments, 1) == 1200
      && !WithinLimits(s2.ledger)
  {
    var l0 := Ledger([CreditApplication(1, "u", 1000, "DZD", ApplicationStatus.Approved, 0)], [], []);
    var a := CreatePayment(l0, 1, "u", 600, "DZD", "card", 1);
    var b := CreatePayment(a.ledger, 1, "u", 600, "DZD", "card", 2);
    var s1 := HandlePaymentWebhook(b.ledger, 1, "SUCCESSFUL", 3);
    var s2 := HandlePaymentWebhook(s1.ledger, 2, "SUCCESSFUL", 4);
    assert TotalPaymentsForApplication(l0, 1) == 0;
    assert TotalPaymentsForApplication(a.ledger, 1) == 0;
    assert s2.ledger.payments[..1] == [s2.ledger.payments[0]];
    assert s2.ledger.applications[0] in s2.ledger.applications;
  }

  /** The first settlement of a payment gives it exactly the tier-rule number
      of installments, numbered from 1 and one month apart, summing to the
      payment's amount; the payment details then show that batch. */
  lemma FirstSettlementSchedule(l: Ledger, id: nat, now: Timestamp)
    requires Valid(l)
    requires PaymentById(l, id).Some?
    requires InstallmentsOfPayment(l.installments, id) == []
    ensures var p := PaymentById(l, id).value;
      var d := GetPaymentDetails(HandlePaymentWebhook(l, id, "SUCCESSFUL", now).ledger, id);
      && d.Ok?
      && d.value.payment.status == PaymentStatus.Successful
      && |d.value.installments| == InstallmentCount(p.amount)
      && TotalAmount(d.value.installments) == p.amount
      && (forall i :: 0 <= i < |d.value.installments| ==>
            && d.value.installments[i].number == i + 1
            && d.value.installments[i].dueDate == MonthsAfter(now, i + 1)
            && d.value.installments[i].status == InstallmentStatus.Pending)
  {
    var p := l.payments[id - 1];
    var batch := Schedule(p.id, p.amount, |l.installments| + 1, now);
    var l' := HandlePaymentWebhook(l, id, "SUCCESSFUL", now).ledger;
    assert l'.installments == l.installments + batch;
    InstallmentsOfAppend(l.installments, batch, id);
    InstallmentsOfOwnBatch(batch, id);
    assert [] + batch == batch;
    assert InstallmentsOfPayment(l'.installments, id) == batch;
    ScheduleTotal(p.id, p.amount, |l.installments| + 1, now);
  }

  /** The webhook does not look at the current status: a second SUCCESSFUL
      delivery for the same payment appends a second batch, so the payment
      ends up with twice the installments, owing twice its amount. */
  lemma RepeatedSettlementDuplicatesBatch(l: Ledger, id: nat, first: Timestamp, second: Timestamp)
    requires Valid(l)
    requires PaymentById(l, id).Some?
    requires InstallmentsOfPayment(l.installments, id) == []
    ensures var p := PaymentById(l, id).value;
      var l1 := HandlePaymentWebhook(l, id, "SUCCESSFUL", first).ledger;
      var r2 := HandlePaymentWebhook(l1, id, "SUCCESSFUL", second);
      var owed := InstallmentsOfPayment(r2.ledger.installments, id);
      && r2.result == Ok(())
      && |owed| == 2 * InstallmentCount(p.amount)
      && TotalAmount(owed) == 2 * p.amount
  {
    var p := l.payments[id - 1];
    var l1 := HandlePaymentWebhook(l, id, "SUCCESSFUL", first).ledger;
    var b1 := Schedule(p.id, p.amount, |l.installments| + 1, first);
    var b2 := Schedule(p.id, p.amount, |l1.installments| + 1, second);
    var l2 := HandlePaymentWebhook(l1, id, "SUCCESSFUL", second).ledger;
    assert l1.payments[id - 1] == p.(status := PaymentStatus.Successful);
    assert l2.installments == l.installments + b1 + b2;
    InstallmentsOfAppend(l.installments + b1, b2, id);
    InstallmentsOfAppend(l.installments, b1, id);
    InstallmentsOfOwnBatch(b1, id);
    InstallmentsOfOwnBatch(b2, id);
    ScheduleTotal(p.id, p.amount, |l.installments| + 1, first);
    ScheduleTotal(p.id, p.amount, |l1.installments| + 1, second);
    TotalAmountAppend(b1, b2);
    assert [] + b1 == b1;
    assert InstallmentsOfPayment(l2.installments, id) == b1 + b2;
  }

  /** A FAILED delivery after a SUCCESSFUL one is accepted: the payment ends
      FAILED while the installment batch of the first delivery stays. */
  lemma ConflictingDeliveryOverwrites(l: Ledger, id: nat, first: Timestamp, second: Timestamp)
    requires Valid(l)
    requires PaymentById(l, id).Some?
    ensures var l1 := HandlePaymentWebhook(l, id, "SUCCESSFUL", first).ledger;
      var r2 := HandlePaymentWebhook(l1, id, "FAILED", second);
      && r2.result == Ok(())
      && PaymentById(r2.ledger, id).value.status == PaymentStatus.Failed
      && |r2.ledger.installments| == |l.installments| + InstallmentCount(PaymentById(l, id).value.amount)
  {
  }

  /** A decided application can be decided again: an approved application
      scored below the threshold becomes rejected. */
  lemma ApprovalCanBeReversed(l: Ledger, id: nat, score: int)
    requires ApplicationById(l, id).Some?
    requires ApplicationById(l, id).value.status == ApplicationStatus.Approved
    requires score < MinApprovalScore
    ensures var r := ApproveCreditApplication(l, id, score);
      r.result.Ok? && ApplicationById(r.ledger, id).value.status == ApplicationStatus.Rejected
  {
  }
}

=== FILE: credit_payment_handler.dfy ===
/** The HTTP layer of the credit engine, reduced to what it decides: the
    currency and payment-method allow-lists checked before the service is
    called, and the response records built by copying fields out of the
    stored records. Request binding and identifier parsing are not modelled. */
module CreditPaymentHandler {
  import opened Outcomes
  import opened CreditDomain
  import opened Ledger
  import Service = CreditPaymentService

  const SupportedCurrency := "DZD"
  const SupportedPaymentMethod := "card"

  /** The currency allow-list; the one accepted code also has the three
      letters the request binding demands. */
  function IsValidCurrency(currency: string): (ok: bool)
    ensures ok ==> |currency| == 3
  {
    currency == SupportedCurrency
  }

  /** The payment-method allow-list; the accepted method is never the empty
      string the request binding refuses as missing. */
  function IsValidPaymentMethod(paymentMethod: string): (ok: bool)
    ensures ok ==> |paymentMethod| > 0
  {
    paymentMethod == SupportedPaymentMethod
  }

  datatype CreditApplicationRequest = CreditApplicationRequest(userId: string, amount: int, currency: string)

  datatype PaymentRequest = PaymentRequest(
    creditApplicationId: nat,
    userId: string,
    amount: int,
    currency: string,
    paymentMethod: string)

  datatype CreditApplicationResponse = CreditApplicationResponse(
    id: nat,
    userId: string,
    amount: int,
    currency: string,
    status: string,
    createdAt: Timestamp)

  datatype InstallmentResponse = InstallmentResponse(
    id: nat,
    paymentId: nat,
    installmentNumber: int,
    dueDate: DueDate,
    amount: int,
    status: string,
    createdAt: Timestamp)

  datatype PaymentResponse = PaymentResponse(
    id: nat,
    creditApplicationId: nat,
    userId: string,
    amount: int,
    currency: string,
    paymentMethod: string,
    status: string,
    createdAt: Timestamp,
    installments: seq<InstallmentResponse>)

  /** The application response copies every field unchanged: reading it
      back gives the stored application. */
  function ApplicationResponseOf(app: CreditApplication): (resp: CreditApplicationResponse)
    ensures ApplicationOfResponse(resp) == Some(app)
  {
    CreditApplicationResponse(app.id, app.userId, app.amount, app.currency, app.status.Name(), app.createdAt)
  }

  function InstallmentResponseOf(i: Installment): InstallmentResponse
  {
    InstallmentResponse(i.id, i.paymentId, i.number, i.dueDate, i.amount, i.status.Name(), i.createdAt)
  }

  /** One response entry per installment, in the same order. */
  function InstallmentResponsesOf(rows: seq<Installment>): (r: seq<InstallmentResponse>)
    ensures |r| == |rows|
    ensures forall i :: 0 <= i < |rows| ==> r[i] == InstallmentResponseOf(rows[i])
  {
    seq(|rows|, k requires 0 <= k < |rows| => InstallmentResponseOf(rows[k]))
  }

  /** The payment response copies the payment and each installment
      unchanged and in order: reading it back gives the payment details it
      came from. */
  function PaymentResponseOf(d: PaymentDetails): (resp: PaymentResponse)
    ensures DetailsOfResponse(resp) == Some(d)
  {
    InstallmentResponsesRoundTrip(d.installments);
    assert ParsePaymentStatus(d.payment.status.Name()) == Some(d.payment.status);
    var p := d.payment;
    PaymentResponse(p.id, p.creditApplicationId, p.userId, p.amount, p.currency, p.paymentMethod,
                    p.status.Name(), p.createdAt, InstallmentResponsesOf(d.installments))
  }

  /** Reads a response back into the record it was built from. */
  function ApplicationOfResponse(resp: CreditApplicationResponse): Option<CreditApplication>
  {
    match ParseApplicationStatus(resp.status)
    case None => None
    case Some(st) => Some(CreditApplication(resp.id, resp.userId, resp.amount, resp.currency, st, resp.createdAt))
  }

  function InstallmentOfResponse(resp: InstallmentResponse): Option<Installment>
  {
    match ParseInstallmentStatus(resp.status)
    case None => None
    case Some(st) => Some(Installment(resp.id, resp.paymentId, resp.installmentNumber, resp.dueDate, resp.amount, st, resp.createdAt))
  }

  function InstallmentsOfResponses(rs: seq<InstallmentResponse>): Option<seq<Installment>>
  {
    if |rs| == 0 then Some([])
    else match (InstallmentsOfResponses(rs[..|rs| - 1]), InstallmentOfResponse(rs[|rs| - 1]))
      case (Some(init), Some(last)) => Some(init + [last])
      case _ => None
  }

  function DetailsOfResponse(resp: PaymentResponse): Option<PaymentDetails>
  {
    match (ParsePaymentStatus(resp.status), InstallmentsOfResponses(resp.installments))
    case (Some(st), Some(rows)) =>
      Some(PaymentDetails(Payment(resp.id, resp.creditApplicationId, resp.userId, resp.amount, resp.currency,
                                  resp.paymentMethod, st, resp.createdAt), rows))
    case _ => None
  }

  lemma {:induction false} InstallmentResponsesRoundTrip(rows: seq<Installment>)
    ensures InstallmentsOfResponses(InstallmentResponsesOf(rows)) == Some(rows)
    decreases |rows|
  {
    var rs := InstallmentResponsesOf(rows);
    if |rows| > 0 {
      var n := |rows| - 1;
      assert rs[..n] == InstallmentResponsesOf(rows[..n]);
      InstallmentResponsesRoundTrip(rows[..n]);
      assert InstallmentOfResponse(rs[n]) == Some(rows[n]);
      assert rows[..n] + [rows[n]] == rows;
    }
  }

  /** The create-application endpoint: an unsupported currency is refused
      before the service runs, so nothing is stored; otherwise the service
      decides and the stored application is returned. */
  function CreateCreditApplication(l: Ledger, req: CreditApplicationRequest, now: Timestamp): (r: Step<CreditApplicationResponse>)
    ensures !IsValidCurrency(req.currency) ==> r == Step(l, Err(UnsupportedCurrency))
    ensures IsValidCurrency(req.currency) ==>
      var s := Service.CreateCreditApplication(l, req.userId, req.amount, req.currency, now);
      && r.ledger == s.ledger
      && (s.result.Err? ==> r.result == Err(s.result.error))
      && (s.result.Ok? ==> r.result.Ok? && ApplicationOfResponse(r.result.value) == ApplicationById(s.ledger, s.result.value))
    ensures r.result.Ok? ==> r.result.value.currency == SupportedCurrency && r.result.value.status == "PENDING"
  {
    if !IsValidCurrency(req.currency) then Step(l, Err(UnsupportedCurrency))
    else
      var s := Service.CreateCreditApplication(l, req.userId, req.amount, req.currency, now);
      match s.result
      case Err(e) => Step(s.ledger, Err(e))
      case Ok(id) =>
        Step(s.ledger, Ok(ApplicationResponseOf(s.ledger.applications[id - 1])))
  }

  /** Over all requests, the two allow-lists are the only gates the HTTP
      layer adds: a request is refused as an unsupported currency exactly
      when its currency is not "DZD", and as an unsupported payment method
      exactly when its method is not "card"; the service never raises either
      error itself. */
  lemma HandlerGatesAcceptOnlyDzdAndCard(l: Ledger, app: CreditApplicationRequest, pay: PaymentRequest, now: Timestamp)
    ensures CreateCreditApplication(l, app, now).result == Err(UnsupportedCurrency) <==> app.currency != "DZD"
    ensures CreatePayment(l, pay, now).result == Err(UnsupportedPaymentMethod) <==> pay.paymentMethod != "card"
  {
  }

  /** The create-payment endpoint: an unsupported payment method is refused
      before the service runs, so nothing is stored; otherwise the admitted
      payment is returned, with no installments yet. */
  function CreatePayment(l: Ledger, req: PaymentRequest, now: Timestamp): (r: Step<PaymentResponse>)
    ensures !IsValidPaymentMethod(req.paymentMethod) ==> r == Step(l, Err(UnsupportedPaymentMethod))
    ensures IsValidPaymentMethod(req.paymentMethod) ==>
      var s := Service.CreatePayment(l, req.creditApplicationId, req.userId, req.amount, req.currency, req.paymentMethod, now);
      && r.ledger == s.ledger
      && (s.result.Err? ==> r.result == Err(s.result.error))
      && (s.result.Ok? ==>
            && r.result.Ok?
            && DetailsOfResponse(r.result.value) == Some(PaymentDetails(PaymentById(s.ledger, s.result.value).value, [])))
    ensures r.result.Ok? ==>
      && r.result.value.paymentMethod == SupportedPaymentMethod
      && r.result.value.status == "PENDING"
      && r.result.value.installments == []
  {
    if !IsValidPaymentMethod(req.paymentMethod) then Step(l, Err(UnsupportedPaymentMethod))
    else
      var s := Service.CreatePayment(l, req.creditApplicationId, req.userId, req.amount, req.currency, req.paymentMethod, now);
      match s.result
      case Err(e) => Step(s.ledger, Err(e))
      case Ok(id) =>
        var d := PaymentDetails(s.ledger.payments[id - 1], []);
        Step(s.ledger, Ok(PaymentResponseOf(d)))
  }

  /** The payment-details endpoint: the stored payment with its installments,
      copied into a response. */
  function GetPaymentDetails(l: Ledger, id: nat): (r: Result<PaymentResponse>)
    ensures r.Err? <==> PaymentById(l, id).None?
    ensures r.Ok? ==> DetailsOfResponse(r.value) == Some(Service.GetPaymentDetails(l, id).value)
  {
    match Service.GetPaymentDetails(l, id)
    case Err(e) => Err(e)
    case Ok(d) =>
      Ok(PaymentResponseOf(d))
  }
}

=== FILE: credit_payment_service.dfy ===
/** The credit-payment engine: application intake and decision, admission of
    payments against an approved amount, settlement through the payment
    webhook or the gateway path, and the installment status transitions.

    Each operation is a guard followed by a record update, written as a pure
    step from one ledger to the next. The credit score, the gateway outcome
    and the current instant are parameters; persistence never fails here. */
module CreditPaymentService {
  import opened Outcomes
  import opened CreditDomain
  import opened Ledger
  import opened InstallmentPlan
  import opened AdmissionCheck

  /** Scores below this are rejected. */
  const MinApprovalScore := 650

  /** Stores a new application in PENDING state, unless its amount is not
      positive. */
  function CreateCreditApplication(l: Ledger, userId: string, amount: int, currency: string, now: Timestamp): (r: Step<nat>)
    ensures amount <= 0 ==> r == Step(l, Err(InvalidAmount))
    ensures amount > 0 ==>
      && r.result.Ok?
      && ApplicationById(l, r.result.value).None?
      && ApplicationById(r.ledger, r.result.value)
           == Some(CreditApplication(r.result.value, userId, amount, currency, ApplicationStatus.Pending, now))
      && (forall id :: ApplicationById(l, id).Some? ==> ApplicationById(r.ledger, id) == ApplicationById(l, id))
      && r.ledger.applications == l.applications + [ApplicationById(r.ledger, r.result.value).value]
      && r.ledger.payments == l.payments
      && r.ledger.installments == l.installments
  {
    if amount <= 0 then Step(l, Err(InvalidAmount))
    else
      var id := |l.applications| + 1;
      var app := CreditApplication(id, userId, amount, currency, ApplicationStatus.Pending, now);
      Step(l.(applications := l.applications + [app]), Ok(id))
  }

  /** Decides an application from a credit score. Any stored application can
      be decided, including one that was already approved or rejected. */
  function ApproveCreditApplication(l: Ledger, id: nat, score: int): (r: Step<()>)
    ensures ApplicationById(l, id).None? ==> r == Step(l, Err(NotFound))
    ensures ApplicationById(l, id).Some? ==>
      var app := ApplicationById(l, id).value;
      var decided := ApplicationById(r.ledger, id);
      && r.result == Ok(())
      && decided.Some?
      && (decided.value.status == ApplicationStatus.Rejected <==> score < MinApprovalScore)
      && (decided.value.status == ApplicationStatus.Approved <==> score >= MinApprovalScore)
      && decided.value.(status := app.status) == app
      && (forall other :: other != id ==> ApplicationById(r.ledger, other) == ApplicationById(l, other))
      && r.ledger.payments == l.payments
      && r.ledger.installments == l.installments
  {
    match ApplicationById(l, id)
    case None => Step(l, Err(NotFound))
    case Some(app) =>
      var status := if score < MinApprovalScore then ApplicationStatus.Rejected else ApplicationStatus.Approved;
      Step(l.(applications := l.applications[id - 1 := app.(status := status)]), Ok(()))
  }

  /** Admits a payment against an approved application when the SUCCESSFUL
      payments already made plus this one stay within the application's
      amount; reaching the amount exactly is allowed. */
  function CreatePayment(l: Ledger, appId: nat, userId: string, amount: int, currency: string,
                         paymentMethod: string, now: Timestamp): (r: Step<nat>)
    ensures r.result.Err? ==> r.ledger == l
    ensures r.result == Err(InvalidAmount) <==> amount <= 0
    ensures amount > 0 && ApplicationById(l, appId).None? ==> r.result == Err(NotFound)
    ensures amount > 0 && ApplicationById(l, appId).Some? ==>
      var app := ApplicationById(l, appId).value;
      && (r.result == Err(NotApproved) <==> app.status != ApplicationStatus.Approved)
      && (r.result == Err(InsufficientCredit) <==>
            app.status == ApplicationStatus.Approved && TotalPaymentsForApplication(l, appId) + amount > app.amount)
    ensures r.result.Ok? <==>
      && amount > 0
      && ApplicationById(l, appId).Some?
      && ApplicationById(l, appId).value.status == ApplicationStatus.Approved
      && TotalPaymentsForApplication(l, appId) + amount <= ApplicationById(l, appId).value.amount
    ensures r.result.Ok? ==>
      && PaymentById(l, r.result.value).None?
      && PaymentById(r.ledger, r.result.value)
           == Some(Payment(r.result.value, appId, userId, amount, currency, paymentMethod, PaymentStatus.Pending, now))
      && r.ledger.payments[..|l.payments|] == l.payments
      && r.ledger.payments == l.payments + [PaymentById(r.ledger, r.result.value).value]
      && r.ledger.applications == l.applications
      && r.ledger.installments == l.installments
  {
    if amount <= 0 then Step(l, Err(InvalidAmount))
    else match ApplicationById(l, appId)
      case None => Step(l, Err(NotFound))
      case Some(app) =>
        if app.status != ApplicationStatus.Approved then Step(l, Err(NotApproved))
        else if ExceedsCredit(TotalPaymentsForApplication(l, appId), amount, app.amount) then Step(l, Err(InsufficientCredit))
        else
          var id := |l.payments| + 1;
          var p := Payment(id, appId, userId, amount, currency, paymentMethod, PaymentStatus.Pending, now);
          Step(l.(payments := l.payments + [p]), Ok(id))
  }

  /** Marks payment row `id` SUCCESSFUL and appends its installment batch:
      as many rows as the tier rule gives, all pointing at the payment and
      together worth its amount. Nothing else changes. */
  function Settle(l: Ledger, id: nat, now: Timestamp): (l': Ledger)
    requires 1 <= id <= |l.payments|
    ensures l'.applications == l.applications
    ensures |l'.payments| == |l.payments|
    ensures l'.payments[id - 1] == l.payments[id - 1].(status := PaymentStatus.Successful)
    ensures forall k :: 0 <= k < |l.payments| && k != id - 1 ==> l'.payments[k] == l.payments[k]
    ensures |l'.installments| == |l.installments| + InstallmentCount(l.payments[id - 1].amount)
    ensures l'.installments[..|l.installments|] == l.installments
    ensures forall k :: |l.installments| <= k < |l'.installments| ==> l'.installments[k].paymentId == l.payments[id - 1].id
    ensures TotalAmount(l'.installments[|l.installments|..]) == l.payments[id - 1].amount
  {
    var p := l.payments[id - 1];
    var batch := Schedule(p.id, p.amount, |l.installments| + 1, now);
    ScheduleTotal(p.id, p.amount, |l.installments| + 1, now);
    assert (l.installments + batch)[|l.installments|..] == batch;
    l.(payments := l.payments[id - 1 := p.(status := PaymentStatus.Successful)],
       installments := l.installments + batch)
  }

  /** The payment webhook: SUCCESSFUL settles the payment and creates a fresh
      installment batch, FAILED marks it failed, any other status string is
      refused. The current status is not consulted. */
  function HandlePaymentWebhook(l: Ledger, id: nat, status: string, now: Timestamp): (r: Step<()>)
    ensures PaymentById(l, id).None? ==> r == Step(l, Err(NotFound))
    ensures PaymentById(l, id).Some? && status != "SUCCESSFUL" && status != "FAILED" ==>
      r == Step(l, Err(UnknownPaymentStatus(status)))
    ensures PaymentById(l, id).Some? && status == "SUCCESSFUL" ==>
      var p := PaymentById(l, id).value;
      && r.result == Ok(())
      && PaymentById(r.ledger, id) == Some(p.(status := PaymentStatus.Successful))
      && r.ledger.installments == l.installments + Schedule(p.id, p.amount, |l.installments| + 1, now)
      && r.ledger.applications == l.applications
    ensures PaymentById(l, id).Some? && status == "FAILED" ==>
      var p := PaymentById(l, id).value;
      && r.result == Ok(())
      && PaymentById(r.ledger, id) == Some(p.(status := PaymentStatus.Failed))
      && r.ledger.installments == l.installments
      && r.ledger.applications == l.applications
    ensures forall other :: other != id ==> PaymentById(r.ledger, other) == PaymentById(l, other)
  {
    match PaymentById(l, id)
    case None => Step(l, Err(NotFound))
    case Some(p) =>
      if status == PaymentStatus.Successful.Name() then Step(Settle(l, id, now), Ok(()))
      else if status == PaymentStatus.Failed.Name() then
        Step(l.(payments := l.payments[id - 1 := p.(status := PaymentStatus.Failed)]), Ok(()))
      else Step(l, Err(UnknownPaymentStatus(status)))
  }

  /** The gateway path: a refusal marks the payment FAILED and still reports
      `PaymentFailed`; an acceptance settles it exactly as the SUCCESSFUL
      webhook does. */
  function ProcessPayment(l: Ledger, id: nat, gatewayAccepts: bool, now: Timestamp): (r: Step<()>)
    ensures PaymentById(l, id).None? ==> r == Step(l, Err(NotFound))
    ensures PaymentById(l, id).Some? && !gatewayAccepts ==>
      && r.result == Err(PaymentFailed)
      && r.ledger == HandlePaymentWebhook(l, id, "FAILED", now).ledger
    ensures PaymentById(l, id).Some? && gatewayAccepts ==>
      r == HandlePaymentWebhook(l, id, "SUCCESSFUL", now)
  {
    match PaymentById(l, id)
    case None => Step(l, Err(NotFound))
    case Some(p) =>
      if !gatewayAccepts then
        Step(l.(payments := l.payments[id - 1 := p.(status := PaymentStatus.Failed)]), Err(PaymentFailed))
      else Step(Settle(l, id, now), Ok(()))
  }

  /** Puts an installment back to PENDING, whatever its status was. */
  function ProcessInstallment(l: Ledger, id: nat): (r: Step<()>)
    ensures InstallmentById(l, id).None? ==> r == Step(l, Err(NotFound))
    ensures InstallmentById(l, id).Some? ==>
      && r.result == Ok(())
      && InstallmentById(r.ledger, id) == Some(InstallmentById(l, id).value.(status := InstallmentStatus.Pending))
      && r.ledger.applications == l.applications
      && r.ledger.payments == l.payments
    ensures forall other :: other != id ==> InstallmentById(r.ledger, other) == InstallmentById(l, other)
  {
    match InstallmentById(l, id)
    case None => Step(l, Err(NotFound))
    case Some(i) => Step(l.(installments := l.installments[id - 1 := i.(status := InstallmentStatus.Pending)]), Ok(()))
  }

  /** The installment webhook: PAID and FAILED are stored as sent, any other
      status string is refused. The current status is not consulted. */
  function HandleInstallmentWebhook(l: Ledger, id: nat, status: string): (r: Step<()>)
    ensures InstallmentById(l, id).None? ==> r == Step(l, Err(NotFound))
    ensures InstallmentById(l, id).Some? ==>
      && (r.result.Ok? <==> status == "PAID" || status == "FAILED")
      && (r.result.Err? ==> r == Step(l, Err(UnknownInstallmentStatus(status))))
      && (r.result.Ok? ==>
            && ParseInstallmentStatus(status).Some?
            && InstallmentById(r.ledger, id)
                 == Some(InstallmentById(l, id).value.(status := ParseInstallmentStatus(status).value)))
      && r.ledger.applications == l.applications
      && r.ledger.payments == l.payments
    ensures forall other :: other != id ==> InstallmentById(r.ledger, other) == InstallmentById(l, other)
  {
    match InstallmentById(l, id)
    case None => Step(l, Err(NotFound))
    case Some(i) =>
      if status == InstallmentStatus.Paid.Name() then
        Step(l.(installments := l.installments[id - 1 := i.(status := InstallmentStatus.Paid)]), Ok(()))
      else if status == InstallmentStatus.Failed.Name() then
        Step(l.(installments := l.installments[id - 1 := i.(status := InstallmentStatus.Failed)]), Ok(()))
      else Step(l, Err(UnknownInstallmentStatus(status)))
  }

  /** A payment joined with every installment row that points at it. */
  function GetPaymentDetails(l: Ledger, id: nat): (r: Result<PaymentDetails>)
    ensures r.Err? <==> PaymentById(l, id).None?
    ensures r.Err? ==> r.error == NotFound
    ensures r.Ok? ==>
      && r.value.payment == PaymentById(l, id).value
      && r.value.installments == InstallmentsOfPayment(l.installments, id)
  {
    match PaymentById(l, id)
    case None => Err(NotFound)
    case Some(p) => Ok(PaymentDetails(p, InstallmentsOfPayment(l.installments, id)))
  }
}

=== FILE: credit_scenarios.dfy ===
/** Whole runs of the credit engine: the score that decides an application,
    and the apply-approve-pay-settle path with its credit-limit refusal. */
module CreditScenarios {
  import opened Outcomes
  import opened CreditDomain
  import opened Ledger
  import opened InstallmentPlan
  import opened CreditPaymentService
  import opened CreditLifecycle
  import Score = CreditScore
  import Handler = CreditPaymentHandler

  /** With the weighted generator as the score source, an application is
      approved exactly when the band draw lands on Good or better, or on
      Fair with a score of at least 650 inside it. */
  lemma WeightedScoreDecision(l: Ledger, id: nat, randomWeight: int, offset: int)
    requires ApplicationById(l, id).Some?
    requires 0 <= randomWeight < Score.TotalWeight(Score.Weights)
    requires 0 <= offset < Score.SelectedRange(randomWeight).max - Score.SelectedRange(randomWeight).min + 1
    ensures var r := ApproveCreditApplication(l, id, Score.WeightedRandomCreditScore(randomWeight, offset));
      ApplicationById(r.ledger, id).value.status == ApplicationStatus.Approved
      <==> 35 <= randomWeight || (10 <= randomWeight && 70 <= offset)
  {
  }

  /** The store after applying for 10000, approving with 700 and paying
      4000: one APPROVED application and one PENDING payment. */
  function AdmittedStore(now: Timestamp): Ledger
  {
    Ledger([CreditApplication(1, "user", 10000, "USD", ApplicationStatus.Approved, now)],
           [Payment(1, 1, "user", 4000, "USD", "card", PaymentStatus.Pending, now)],
           [])
  }

  /** The first three requests of the run all succeed and leave exactly
      that store. */
  lemma ApplyApproveAdmit(now: Timestamp)
    ensures
      var c := CreateCreditApplication(EmptyLedger, "user", 10000, "USD", now);
      var a := ApproveCreditApplication(c.ledger, 1, 700);
      var p := CreatePayment(a.ledger, 1, "user", 4000, "USD", "card", now);
      && c.result == Ok(1) && a.result == Ok(()) && p.result == Ok(1)
      && p.ledger == AdmittedStore(now)
  {
  }

  /** Apply for 10000, approve with a passing score, pay 4000 and settle it:
      the payment is split into 6 monthly installments numbered 1 to 6 that
      add up to 4000. A further 7000 no longer fits under the 10000 limit
      and is refused without changing anything. */
  lemma SettleThenExceedLimit(now: Timestamp, later: Timestamp)
    ensures
      var c := CreateCreditApplication(EmptyLedger, "user", 10000, "USD", now);
      var a := ApproveCreditApplication(c.ledger, 1, 700);
      var p := CreatePayment(a.ledger, 1, "user", 4000, "USD", "card", now);
      var s := HandlePaymentWebhook(p.ledger, 1, "SUCCESSFUL", later);
      var d := GetPaymentDetails(s.ledger, 1);
      var q := CreatePayment(s.ledger, 1, "user", 7000, "USD", "card", later);
      && c.result == Ok(1) && a.result == Ok(()) && p.result == Ok(1) && s.result == Ok(())
      && d.Ok?
      && |d.value.installments| == 6
      && TotalAmount(d.value.installments) == 4000
      && (forall i :: 0 <= i < 6 ==>
            && d.value.installments[i].number == i + 1
            && d.value.installments[i].dueDate == MonthsAfter(later, i + 1))
      && q == Step(s.ledger, Err(InsufficientCredit))
  {
    ApplyApproveAdmit(now);
    var l := AdmittedStore(now);
    assert Valid(l);
    FirstSettlementSchedule(l, 1, later);
    var s := HandlePaymentWebhook(l, 1, "SUCCESSFUL", later);
    assert s.ledger.payments == [l.payments[0].(status := PaymentStatus.Successful)];
    assert s.ledger.payments[..0] == [];
    assert TotalPaymentsForApplication(s.ledger, 1) == 4000;
  }

  /** The HTTP layer accepts only DZD, so the same run started through the
      endpoint with "USD" stops at the first request and stores nothing. */
  lemma HandlerRefusesOtherCurrencies(l: Ledger, now: Timestamp)
    ensures Handler.CreateCreditApplication(l, Handler.CreditApplicationRequest("user", 10000, "USD"), now)
            == Step(l, Err(UnsupportedCurrency))
    ensures Handler.CreateCreditApplication(l, Handler.CreditApplicationRequest("user", 10000, "DZD"), now).result.Ok?
  {
  }
}

=== FILE: credit_score.dfy ===
/** The placeholder credit-score source the approval step draws from: a
    uniform score over 300..850, and a weighted one that first picks a band
    by cumulative weight and then a score inside it.

    The random draws (`rand.Intn`) are parameters, each constrained to the
    range `rand.Intn(n)` returns, `0 <= draw < n`. */
module CreditScore {
  datatype CreditScoreRange = CreditScoreRange(min: int, max: int)

  const PoorScore := CreditScoreRange(300, 579)
  const FairScore := CreditScoreRange(580, 669)
  const GoodScore := CreditScoreRange(670, 739)
  const VeryGoodScore := CreditScoreRange(740, 799)
  const ExcellentScore := CreditScoreRange(800, 850)

  /** The zero value a Go `CreditScoreRange` variable starts with. */
  const ZeroRange := CreditScoreRange(0, 0)

  const MinScore := 300
  const MaxScore := 850

  /** The bands in the order the weights refer to them. */
  const Bands: seq<CreditScoreRange> := [PoorScore, FairScore, GoodScore, VeryGoodScore, ExcellentScore]

  /** Poor, Fair, Good, Very Good, Excellent. */
  const Weights: seq<int> := [10, 25, 35, 20, 10]

  /** The bands are non-empty, each starts right after the previous one ends,
      and together they run from 300 to 850. */
  lemma BandsPartitionScores()
    ensures Bands[0].min == MinScore && Bands[|Bands| - 1].max == MaxScore
    ensures forall i :: 0 <= i < |Bands| ==> Bands[i].min <= Bands[i].max
    ensures forall i :: 0 <= i < |Bands| - 1 ==> Bands[i].max + 1 == Bands[i + 1].min
  {
  }

  /** Every score from 300 to 850 lies in exactly one band, and no other
      score lies in any band. */
  lemma BandsCoverExactly(score: int)
    ensures MinScore <= score <= MaxScore <==> exists i :: 0 <= i < |Bands| && Bands[i].min <= score <= Bands[i].max
    ensures forall i, j :: 0 <= i < j < |Bands| ==> !(Bands[i].min <= score <= Bands[i].max && Bands[j].min <= score <= Bands[j].max)
  {
    if MinScore <= score <= MaxScore {
      if score <= 579 { assert Bands[0].min <= score <= Bands[0].max; }
      else if score <= 669 { assert Bands[1].min <= score <= Bands[1].max; }
      else if score <= 739 { assert Bands[2].min <= score <= Bands[2].max; }
      else if score <= 799 { assert Bands[3].min <= score <= Bands[3].max; }
      else { assert Bands[4].min <= score <= Bands[4].max; }
    }
  }

  /** The uniform generator: `rand.Intn(551) + 300`. Each draw gives a
      distinct score in 300..850. */
  function RandomCreditScore(draw: int): (score: int)
    requires 0 <= draw < MaxScore - MinScore + 1
    ensures MinScore <= score <= MaxScore
  {
    draw + MinScore
  }

  /** Every score from 300 to 850 is reached by exactly one draw. */
  lemma RandomCreditScoreIsOnto(score: int)
    requires MinScore <= score <= MaxScore
    ensures exists draw :: 0 <= draw < MaxScore - MinScore + 1 && RandomCreditScore(draw) == score
    ensures forall draw :: 0 <= draw < MaxScore - MinScore + 1 && RandomCreditScore(draw) == score ==> draw == score - MinScore
  {
    assert RandomCreditScore(score - MinScore) == score;
  }

  /** The weight-summing loop. */
  function TotalWeight(ws: seq<int>): int
  {
    if |ws| == 0 then 0 else ws[0] + TotalWeight(ws[1..])
  }

  /** The band the `switch` picks for position `i`; past the fifth position
      no case matches and the range keeps its zero value. */
  function RangeAt(i: nat): CreditScoreRange
  {
    if i < |Bands| then Bands[i] else ZeroRange
  }

  /** The selection loop from position `i` on, with `randomWeight` already
      reduced by the weights before `i`: the first position whose weight
      exceeds what is left is chosen, and if none does the range stays zero. */
  function SelectFrom(ws: seq<int>, i: nat, randomWeight: int): (r: CreditScoreRange)
    ensures r == ZeroRange || r in Bands
    ensures i < |ws| && i < |Bands| && randomWeight < ws[i] ==> r == Bands[i]
    ensures |ws| <= i ==> r == ZeroRange
    decreases |ws| - i
  {
    if i >= |ws| then ZeroRange
    else if randomWeight < ws[i] then RangeAt(i)
    else SelectFrom(ws, i + 1, randomWeight - ws[i])
  }

  /** The band the weighted generator's first draw selects. A negative
      weight, which `rand.Intn` never returns, falls into the first band;
      a weight of 100 or more selects nothing. */
  function SelectedRange(randomWeight: int): (r: CreditScoreRange)
    ensures r in Bands <==> randomWeight < 100
    ensures r == ZeroRange <==> 100 <= randomWeight
    ensures randomWeight < 0 ==> r == PoorScore
  {
    SelectFrom(Weights, 0, randomWeight)
  }

  /** The weights total 100, so the first draw is `rand.Intn(100)`. */
  lemma WeightsTotal()
    ensures TotalWeight(Weights) == 100
  {
  }

  /** The cumulative weights split 0..99 into the five bands:
      0..9 Poor, 10..34 Fair, 35..69 Good, 70..89 Very Good, 90..99 Excellent.
      Every draw selects a band, so the zero-range fallback is unreachable. */
  lemma SelectionByCumulativeWeight(randomWeight: int)
    requires 0 <= randomWeight < TotalWeight(Weights)
    ensures SelectedRange(randomWeight) == PoorScore <==> randomWeight < 10
    ensures SelectedRange(randomWeight) == FairScore <==> 10 <= randomWeight < 35
    ensures SelectedRange(randomWeight) == GoodScore <==> 35 <= randomWeight < 70
    ensures SelectedRange(randomWeight) == VeryGoodScore <==> 70 <= randomWeight < 90
    ensures SelectedRange(randomWeight) == ExcellentScore <==> 90 <= randomWeight
    ensures SelectedRange(randomWeight) in Bands
    ensures SelectedRange(randomWeight) != ZeroRange
  {
  }

  /** The weighted generator: a band chosen by `randomWeight`, then
      `rand.Intn(max - min + 1) + min` inside it. The score lies within the
      chosen band, hence within 300..850. */
  function WeightedRandomCreditScore(randomWeight: int, offset: int): (score: int)
    requires 0 <= randomWeight < TotalWeight(Weights)
    requires 0 <= offset < SelectedRange(randomWeight).max - SelectedRange(randomWeight).min + 1
    ensures SelectedRange(randomWeight).min <= score <= SelectedRange(randomWeight).max
    ensures MinScore <= score <= MaxScore
  {
    SelectionByCumulativeWeight(randomWeight);
    var band := SelectedRange(randomWeight);
    offset + band.min
  }
}

=== FILE: installment_plan.dfy ===
/** The installment scheduler of the credit engine: the tier rule choosing the
    number of installments, and the integer split of a settled amount in which
    the last installment absorbs what truncating division leaves over. */
module InstallmentPlan {
  import opened CreditDomain

  /** Go's integer division of `a` by a positive `b`, which truncates toward
      zero (Dafny's `/` is Euclidean and differs for negative `a`). */
  function GoDiv(a: int, b: int): (q: int)
    requires b > 0
    ensures 0 <= a ==> 0 <= a - q * b < b
    ensures a < 0 ==> -b < a - q * b <= 0
  {
    if a >= 0 then a / b else -((-a) / b)
  }

  const SmallAmountLimit := 1000
  const MediumAmountLimit := 5000

  /** The tier rule: fewer than 1000 units are paid in 3 installments, fewer
      than 5000 in 6, anything else in 12. */
  function InstallmentCount(amount: int): (n: int)
    ensures n == 3 || n == 6 || n == 12
    ensures n == 3 <==> amount < SmallAmountLimit
    ensures n == 12 <==> MediumAmountLimit <= amount
  {
    if amount < SmallAmountLimit then 3
    else if amount < MediumAmountLimit then 6
    else 12
  }

  /** The amount of installment `i` (numbered from 1) of `n`: the truncated
      share, with the last one topped up by the remainder, so that the `n`
      shares add up to `amount` and the last exceeds the others in size by
      less than `n`. */
  function ShareOf(amount: int, n: int, i: int): (share: int)
    requires n > 0
    ensures i != n ==> share == GoDiv(amount, n)
    ensures i == n ==> (n - 1) * GoDiv(amount, n) + share == amount
    ensures i == n && 0 <= amount ==> 0 <= share - GoDiv(amount, n) < n
    ensures i == n && amount < 0 ==> -n < share - GoDiv(amount, n) <= 0
  {
    var share := GoDiv(amount, n);
    if i == n then share + (amount - share * n) else share
  }

  /** The batch `createInstallments` builds for a payment settled at `now`,
      the first row receiving the identifier `firstId`. */
  function Schedule(paymentId: nat, amount: int, firstId: nat, now: Timestamp): (batch: seq<Installment>)
    ensures |batch| == InstallmentCount(amount)
    ensures forall i :: 0 <= i < |batch| ==>
      && batch[i].id == firstId + i
      && batch[i].paymentId == paymentId
      && batch[i].number == i + 1
      && batch[i].dueDate == MonthsAfter(now, i + 1)
      && batch[i].status == InstallmentStatus.Pending
      && batch[i].createdAt == now
  {
    var n := InstallmentCount(amount);
    seq(n, i requires 0 <= i < n =>
      Installment(firstId + i, paymentId, i + 1, MonthsAfter(now, i + 1),
                  ShareOf(amount, n, i + 1), InstallmentStatus.Pending, now))
  }

  /** Every installment but the last is the truncated share, and the last
      one is that share plus the remainder, so for a positive amount the
      entries are `amount / n` and `amount / n + amount % n`. */
  lemma ScheduleShares(paymentId: nat, amount: int, firstId: nat, now: Timestamp)
    ensures var batch := Schedule(paymentId, amount, firstId, now);
      && (forall i :: 0 <= i < |batch| - 1 ==> batch[i].amount == GoDiv(amount, |batch|))
      && batch[|batch| - 1].amount == amount - (|batch| - 1) * GoDiv(amount, |batch|)
    ensures var batch := Schedule(paymentId, amount, firstId, now);
      amount > 0 ==>
        && (forall i :: 0 <= i < |batch| - 1 ==> batch[i].amount == amount / |batch|)
        && batch[|batch| - 1].amount == amount / |batch| + amount % |batch|
  {
  }

  /** A prefix of `k` entries that all equal `share` sums to `k * share`. */
  lemma {:induction false} TotalOfEqualPrefix(batch: seq<Installment>, k: nat, share: int)
    requires k <= |batch|
    requires forall i :: 0 <= i < k ==> batch[i].amount == share
    ensures TotalAmount(batch[..k]) == k * share
  {
    if k > 0 {
      assert batch[..k][..k - 1] == batch[..k - 1];
      TotalOfEqualPrefix(batch, k - 1, share);
    }
  }

  /** The batch sums exactly to the settled amount, whatever the sign of the
      amount and however the division truncates. */
  lemma ScheduleTotal(paymentId: nat, amount: int, firstId: nat, now: Timestamp)
    ensures TotalAmount(Schedule(paymentId, amount, firstId, now)) == amount
  {
    var batch := Schedule(paymentId, amount, firstId, now);
    var n := |batch|;
    var share := GoDiv(amount, n);
    TotalOfEqualPrefix(batch, n - 1, share);
    assert batch[..n] == batch;
    assert batch[..n][..n - 1] == batch[..n - 1];
  }

  /** For a positive amount no installment is negative, the last is the
      largest, and any two differ by less than the installment count. */
  lemma ScheduleBalanced(paymentId: nat, amount: int, firstId: nat, now: Timestamp)
    requires amount > 0
    ensures var batch := Schedule(paymentId, amount, firstId, now);
      forall i :: 0 <= i < |batch| ==>
        && 0 <= batch[i].amount <= batch[|batch| - 1].amount
        && batch[|batch| - 1].amount - batch[i].amount < |batch|
  {
  }
}

=== FILE: ledger.dfy ===
/** The credit engine's store: one table per record kind. Row k of a table
    holds the record whose identifier is k + 1, as an auto-increment primary
    key starting at 1 assigns them; a lookup outside the table is a miss.

    Also here: the query behind the admission check (the SUCCESSFUL payments
    of one application) and the invariants the operations keep. */
module Ledger {
  import opened Outcomes
  import opened CreditDomain

  datatype Ledger = Ledger(
    applications: seq<CreditApplication>,
    payments: seq<Payment>,
    installments: seq<Installment>)

  /** The store after an operation, and what the operation returned. */
  datatype Step<+T> = Step(ledger: Ledger, result: Result<T>)

  const EmptyLedger := Ledger([], [], [])

  /** Identifiers match positions, amounts stored through the engine are
      positive, and every child row points at an existing parent. */
  ghost predicate Valid(l: Ledger)
  {
    && (forall k :: 0 <= k < |l.applications| ==>
          l.applications[k].id == k + 1 && l.applications[k].amount > 0)
    && (forall k :: 0 <= k < |l.payments| ==>
          && l.payments[k].id == k + 1
          && l.payments[k].amount > 0
          && 1 <= l.payments[k].creditApplicationId <= |l.applications|)
    && (forall k :: 0 <= k < |l.installments| ==>
          l.installments[k].id == k + 1 && 1 <= l.installments[k].paymentId <= |l.payments|)
  }

  function ApplicationById(l: Ledger, id: nat): (r: Option<CreditApplication>)
    ensures r.Some? <==> 1 <= id <= |l.applications|
    ensures Valid(l) && r.Some? ==> r.value.id == id
  {
    if 1 <= id <= |l.applications| then Some(l.applications[id - 1]) else None
  }

  function PaymentById(l: Ledger, id: nat): (r: Option<Payment>)
    ensures r.Some? <==> 1 <= id <= |l.payments|
    ensures Valid(l) && r.Some? ==> r.value.id == id
  {
    if 1 <= id <= |l.payments| then Some(l.payments[id - 1]) else None
  }

  function InstallmentById(l: Ledger, id: nat): (r: Option<Installment>)
    ensures r.Some? <==> 1 <= id <= |l.installments|
    ensures Valid(l) && r.Some? ==> r.value.id == id
  {
    if 1 <= id <= |l.installments| then Some(l.installments[id - 1]) else None
  }

  /** The payments of one application, in identifier order. */
  function PaymentsOfApplication(ps: seq<Payment>, appId: nat): (r: seq<Payment>)
    ensures forall p :: p in r <==> p in ps && p.creditApplicationId == appId
  {
    if |ps| == 0 then []
    else
      var last := ps[|ps| - 1];
      PaymentsOfApplication(ps[..|ps| - 1], appId) + (if last.creditApplicationId == appId then [last] else [])
  }

  /** The installments of one payment: exactly the rows that point at it,
      kept in table order. */
  function InstallmentsOfPayment(rows: seq<Installment>, paymentId: nat): (r: seq<Installment>)
    ensures forall k :: 0 <= k < |r| ==> r[k].paymentId == paymentId
    ensures |r| <= |rows|
  {
    if |rows| == 0 then []
    else
      var last := rows[|rows| - 1];
      InstallmentsOfPayment(rows[..|rows| - 1], paymentId) + (if last.paymentId == paymentId then [last] else [])
  }

  /** The summing loop of the admission check: SUCCESSFUL amounts only. */
  function SuccessfulTotal(ps: seq<Payment>): (total: int)
  {
    if |ps| == 0 then 0
    else
      var last := ps[|ps| - 1];
      SuccessfulTotal(ps[..|ps| - 1]) + (if last.status == PaymentStatus.Successful then last.amount else 0)
  }

  /** The outstanding total the admission check compares with the limit:
      the SUCCESSFUL payments of the application, whatever their position
      in the table. */
  function TotalPaymentsForApplication(l: Ledger, appId: nat): (total: int)
    ensures total == SettledTotal(l.payments, appId)
  {
    TotalPaymentsIsSettledTotal(l.payments, appId);
    SuccessfulTotal(PaymentsOfApplication(l.payments, appId))
  }

  /** What one payment contributes to the settled total of `appId`. */
  function Contribution(p: Payment, appId: nat): int
  {
    if p.creditApplicationId == appId && p.status == PaymentStatus.Successful then p.amount else 0
  }

  /** Reference definition of the settled total of an application: the sum,
      over the whole payment table, of each payment's contribution. */
  function SettledTotal(ps: seq<Payment>, appId: nat): (total: int)
  {
    if |ps| == 0 then 0 else SettledTotal(ps[..|ps| - 1], appId) + Contribution(ps[|ps| - 1], appId)
  }

  /** The sum of every SUCCESSFUL payment stays within its application's
      amount. The engine keeps this only while each admitted payment settles
      before the next admission (see `CreditPaymentService`). */
  ghost predicate WithinLimits(l: Ledger)
  {
    forall app :: app in l.applications ==> SettledTotal(l.payments, app.id) <= app.amount
  }

  lemma {:induction false} SuccessfulTotalAppend(ps: seq<Payment>, qs: seq<Payment>)
    ensures SuccessfulTotal(ps + qs) == SuccessfulTotal(ps) + SuccessfulTotal(qs)
    decreases |qs|
  {
    if |qs| == 0 {
      assert ps + qs == ps;
    } else {
      assert (ps + qs)[..|ps + qs| - 1] == ps + qs[..|qs| - 1];
      SuccessfulTotalAppend(ps, qs[..|qs| - 1]);
    }
  }

  /** Filtering by application and then summing the SUCCESSFUL amounts gives
      exactly the reference settled total: payments of other applications,
      and PENDING or FAILED payments, are not counted. */
  lemma {:induction false} TotalPaymentsIsSettledTotal(ps: seq<Payment>, appId: nat)
    ensures SuccessfulTotal(PaymentsOfApplication(ps, appId)) == SettledTotal(ps, appId)
    decreases |ps|
  {
    if |ps| > 0 {
      var init := ps[..|ps| - 1];
      var last := ps[|ps| - 1];
      TotalPaymentsIsSettledTotal(init, appId);
      SuccessfulTotalAppend(PaymentsOfApplication(init, appId), if last.creditApplicationId == appId then [last] else []);
      if last.creditApplicationId == appId {
        assert [last][..0] == [];
      }
    }
  }

  /** Appending a payment adds exactly its contribution. */
  lemma SettledTotalAppend(ps: seq<Payment>, p: Payment, appId: nat)
    ensures SettledTotal(ps + [p], appId) == SettledTotal(ps, appId) + Contribution(p, appId)
  {
  }

  /** Replacing one payment changes the settled total by the difference of the
      old and new contributions, and by nothing else. */
  lemma {:induction false} SettledTotalUpdate(ps: seq<Payment>, i: nat, p: Payment, appId: nat)
    requires i < |ps|
    ensures SettledTotal(ps[i := p], appId) == SettledTotal(ps, appId) - Contribution(ps[i], appId) + Contribution(p, appId)
    decreases |ps|
  {
    var n := |ps|;
    if i == n - 1 {
      assert ps[i := p][..n - 1] == ps[..n - 1];
    } else {
      assert ps[i := p][..n - 1] == ps[..n - 1][i := p];
      SettledTotalUpdate(ps[..n - 1], i, p, appId);
    }
  }

  /** An application that no payment points at has settled nothing. */
  lemma {:induction false} SettledTotalUnreferenced(ps: seq<Payment>, appId: nat)
    requires forall k :: 0 <= k < |ps| ==> ps[k].creditApplicationId != appId
    ensures SettledTotal(ps, appId) == 0
    decreases |ps|
  {
    if |ps| > 0 {
      SettledTotalUnreferenced(ps[..|ps| - 1], appId);
    }
  }

  /** A row is among the installments of a payment exactly when it is in
      the table and points at that payment. */
  lemma {:induction false} InstallmentsOfPaymentMembers(rows: seq<Installment>, paymentId: nat, x: Installment)
    ensures x in InstallmentsOfPayment(rows, paymentId) <==> x in rows && x.paymentId == paymentId
    decreases |rows|
  {
    if |rows| > 0 {
      var init := rows[..|rows| - 1];
      var last := rows[|rows| - 1];
      InstallmentsOfPaymentMembers(init, paymentId, x);
      assert rows == init + [last];
    }
  }

  /** With non-negative amounts, the settled total of one application is
      never negative and never more than the SUCCESSFUL amounts of the whole
      table. */
  lemma {:induction false} SettledTotalWithinSuccessful(ps: seq<Payment>, appId: nat)
    requires forall k :: 0 <= k < |ps| ==> ps[k].amount >= 0
    ensures 0 <= SettledTotal(ps, appId) <= SuccessfulTotal(ps)
    decreases |ps|
  {
    if |ps| > 0 {
      SettledTotalWithinSuccessful(ps[..|ps| - 1], appId);
    }
  }

  /** Filtering distributes over appending a batch. */
  lemma {:induction false} InstallmentsOfAppend(rows: seq<Installment>, batch: seq<Installment>, paymentId: nat)
    ensures InstallmentsOfPayment(rows + batch, paymentId)
         == InstallmentsOfPayment(rows, paymentId) + InstallmentsOfPayment(batch, paymentId)
    decreases |batch|
  {
    if |batch| == 0 {
      assert rows + batch == rows;
    } else {
      var n := |batch|;
      var last := batch[n - 1];
      var tail := if last.paymentId == paymentId then [last] else [];
      assert (rows + batch)[..|rows + batch| - 1] == rows + batch[..n - 1];
      assert InstallmentsOfPayment(rows + batch, paymentId)
          == InstallmentsOfPayment(rows + batch[..n - 1], paymentId) + tail;
      InstallmentsOfAppend(rows, batch[..n - 1], paymentId);
      assert InstallmentsOfPayment(batch, paymentId) == InstallmentsOfPayment(batch[..n - 1], paymentId) + tail;
    }
  }

  /** A batch that belongs to one payment is kept whole by its filter. */
  lemma {:induction false} InstallmentsOfOwnBatch(batch: seq<Installment>, paymentId: nat)
    requires forall k :: 0 <= k < |batch| ==> batch[k].paymentId == paymentId
    ensures InstallmentsOfPayment(batch, paymentId) == batch
    decreases |batch|
  {
    if |batch| > 0 {
      InstallmentsOfOwnBatch(batch[..|batch| - 1], paymentId);
      assert batch[..|batch| - 1] + [batch[|batch| - 1]] == batch;
    }
  }

  /** No row points at a payment that does not exist yet. */
  lemma {:induction false} InstallmentsOfUnreferenced(rows: seq<Installment>, paymentId: nat)
    requires forall k :: 0 <= k < |rows| ==> rows[k].paymentId != paymentId
    ensures InstallmentsOfPayment(rows, paymentId) == []
    decreases |rows|
  {
    if |rows| > 0 {
      InstallmentsOfUnreferenced(rows[..|rows| - 1], paymentId);
    }
  }
}

=== FILE: loan_domain.dfy ===
/** Records of the loan product: a loan with running balances, its repayment
    schedule, and the payments made against it, kept in a store with one
    table per record kind (row k holds identifier k + 1).

    Go keeps the money fields as `float64`; here they are exact `real`s, so
    rounding drift is outside the model. */
module LoanDomain {
  import opened Outcomes
  import opened CreditDomain

  datatype LoanStatus = Pending | Approved | Rejected | Active | Paid | Defaulted
  {
    function Name(): string
    {
      match this
      case Pending => "PENDING"
      case Approved => "APPROVED"
      case Rejected => "REJECTED"
      case Active => "ACTIVE"
      case Paid => "PAID"
      case Defaulted => "DEFAULTED"
    }
  }

  datatype LoanPaymentStatus = Pending | Completed | Failed | Refunded
  {
    function Name(): string
    {
      match this
      case Pending => "PENDING"
      case Completed => "COMPLETED"
      case Failed => "FAILED"
      case Refunded => "REFUNDED"
    }
  }

  /** The loan fields the lifecycle reads or writes; an absent timestamp is
      Go's nil pointer. */
  datatype Loan = Loan(
    id: nat,
    amount: real,
    originalTerm: int,
    remainingTerm: int,
    status: LoanStatus,
    approvedAt: Option<Timestamp>,
    activatedAt: Option<Timestamp>,
    remainingAmount: real,
    totalPaidAmount: real)

  datatype RepaymentEntry = RepaymentEntry(
    loanId: nat,
    installmentNum: int,
    dueDate: DueDate,
    amount: real,
    principalPart: real,
    status: string)

  datatype LoanPayment = LoanPayment(
    id: nat,
    loanId: nat,
    amount: real,
    paymentDate: Timestamp,
    status: LoanPaymentStatus,
    paymentMethod: string)

  datatype LoanBook = LoanBook(loans: seq<Loan>, plans: seq<RepaymentEntry>, payments: seq<LoanPayment>)

  /** The book after an operation, and what the operation returned. */
  datatype LoanStep<+T> = LoanStep(book: LoanBook, result: Result<T>)

  function LoanById(book: LoanBook, id: nat): (r: Option<Loan>)
    ensures r.Some? <==> 1 <= id <= |book.loans|
  {
    if 1 <= id <= |book.loans| then Some(book.loans[id - 1]) else None
  }

  /** Every loan's outstanding and repaid amounts add up to its principal. */
  ghost predicate Balanced(book: LoanBook)
  {
    forall loan :: loan in book.loans ==> loan.remainingAmount + loan.totalPaidAmount == loan.amount
  }

  /** Sum of the amounts of a schedule. */
  function PlanTotal(plan: seq<RepaymentEntry>): real
  {
    if |plan| == 0 then 0.0 else plan[0].amount + PlanTotal(plan[1..])
  }
}

=== FILE: loan_payment_service.dfy ===
/** The loan payment service: a repayment is accepted only against an ACTIVE
    loan and only up to what remains owed; it is recorded as COMPLETED, moved
    from the outstanding balance to the repaid total, and the loan is marked
    PAID when nothing remains. */
module LoanPaymentService {
  import opened Outcomes
  import opened CreditDomain
  import opened LoanDomain

  datatype CreatePaymentRequest = CreatePaymentRequest(loanId: nat, amount: real, paymentMethod: string)

  /** The loan after a repayment of `amount` has been applied to it. */
  function Repaid(loan: Loan, amount: real): (after: Loan)
    ensures after.remainingAmount + amount == loan.remainingAmount
    ensures after.totalPaidAmount == loan.totalPaidAmount + amount
    ensures after.remainingAmount + after.totalPaidAmount == loan.remainingAmount + loan.totalPaidAmount
    ensures after.status == (if after.remainingAmount == 0.0 then LoanStatus.Paid else loan.status)
    ensures after.(remainingAmount := loan.remainingAmount, totalPaidAmount := loan.totalPaidAmount, status := loan.status) == loan
  {
    var remaining := loan.remainingAmount - amount;
    loan.(remainingAmount := remaining,
          totalPaidAmount := loan.totalPaidAmount + amount,
          status := if remaining == 0.0 then LoanStatus.Paid else loan.status)
  }

  /** `MakePayment`: the loan must exist, be ACTIVE, and owe at least the
      amount paid (paying exactly the balance is allowed). On success the
      payment row is appended and the loan updated; on refusal nothing
      changes. */
  function MakePayment(book: LoanBook, req: CreatePaymentRequest, now: Timestamp): (r: LoanStep<LoanPayment>)
    ensures r.result.Err? ==> r.book == book
    ensures LoanById(book, req.loanId).None? <==> r.result == Err(NotFound)
    ensures LoanById(book, req.loanId).Some? ==>
      var loan := LoanById(book, req.loanId).value;
      && (r.result == Err(LoanNotActive) <==> loan.status != LoanStatus.Active)
      && (r.result == Err(AmountExceedsRemaining) <==> loan.status == LoanStatus.Active && req.amount > loan.remainingAmount)
    ensures r.result.Ok? ==>
      var loan := LoanById(book, req.loanId).value;
      var after := LoanById(r.book, req.loanId);
      && loan.status == LoanStatus.Active
      && req.amount <= loan.remainingAmount
      && after.Some?
      && after.value == Repaid(loan, req.amount)
      && after.value.remainingAmount == loan.remainingAmount - req.amount
      && after.value.totalPaidAmount == loan.totalPaidAmount + req.amount
      && after.value.remainingAmount >= 0.0
      && (after.value.status == LoanStatus.Paid <==> after.value.remainingAmount == 0.0)
      && (after.value.status != LoanStatus.Paid ==> after.value.status == LoanStatus.Active)
      && r.result.value == LoanPayment(|book.payments| + 1, req.loanId, req.amount, now, LoanPaymentStatus.Completed, req.paymentMethod)
      && r.book.payments == book.payments + [r.result.value]
      && r.book.plans == book.plans
    ensures forall other :: other != req.loanId ==> LoanById(r.book, other) == LoanById(book, other)
  {
    match LoanById(book, req.loanId)
    case None => LoanStep(book, Err(NotFound))
    case Some(loan) =>
      if loan.status != LoanStatus.Active then LoanStep(book, Err(LoanNotActive))
      else if req.amount > loan.remainingAmount then LoanStep(book, Err(AmountExceedsRemaining))
      else
        var payment := LoanPayment(|book.payments| + 1, req.loanId, req.amount, now,
                                   LoanPaymentStatus.Completed, req.paymentMethod);
        LoanStep(book.(payments := book.payments + [payment],
                       loans := book.loans[req.loanId - 1 := Repaid(loan, req.amount)]),
                 Ok(payment))
  }

  /** A repayment moves money between the outstanding and repaid balances and
      never changes their sum, so every loan stays balanced. */
  lemma MakePaymentKeepsBalanced(book: LoanBook, req: CreatePaymentRequest, now: Timestamp)
    requires Balanced(book)
    ensures Balanced(MakePayment(book, req, now).book)
  {
  }

  /** Repaid totals only grow through accepted payments: the repaid total
      never exceeds the principal while the outstanding balance is not
      negative. */
  lemma RepaidNeverExceedsPrincipal(book: LoanBook, req: CreatePaymentRequest, now: Timestamp)
    requires Balanced(book)
    requires LoanById(book, req.loanId).Some? && LoanById(book, req.loanId).value.remainingAmount >= 0.0
    ensures var r := MakePayment(book, req, now);
      var after := LoanById(r.book, req.loanId).value;
      after.remainingAmount >= 0.0 && after.totalPaidAmount <= after.amount
  {
  }

  /** Paying off exactly the balance closes the loan, and the closed loan
      refuses any further payment as not active. */
  lemma PayoffClosesLoan(book: LoanBook, loanId: nat, paymentMethod: string, now: Timestamp, next: CreatePaymentRequest, later: Timestamp)
    requires LoanById(book, loanId).Some?
    requires LoanById(book, loanId).value.status == LoanStatus.Active
    requires next.loanId == loanId
    ensures var loan := LoanById(book, loanId).value;
      var r := MakePayment(book, CreatePaymentRequest(loanId, loan.remainingAmount, paymentMethod), now);
      && r.result.Ok?
      && LoanById(r.book, loanId).value.status == LoanStatus.Paid
      && MakePayment(r.book, next, later).result == Err(LoanNotActive)
  {
  }

  /** Nothing checks that a payment is positive: a negative "payment" on an
      active loan is accepted as COMPLETED and raises what is owed. */
  lemma NegativePaymentAccepted(book: LoanBook, req: CreatePaymentRequest, now: Timestamp)
    requires LoanById(book, req.loanId).Some?
    requires LoanById(book, req.loanId).value.status == LoanStatus.Active
    requires LoanById(book, req.loanId).value.remainingAmount >= 0.0
    requires req.amount < 0.0
    ensures var r := MakePayment(book, req, now);
      && r.result.Ok?
      && r.result.value.status == LoanPaymentStatus.Completed
      && LoanById(r.book, req.loanId).value.remainingAmount > LoanById(book, req.loanId).value.remainingAmount
  {
  }
}

=== FILE: loan_service.dfy ===
/** The loan service: creating a loan in its initial state, changing its
    status with the approval and activation timestamps, validating status
    strings, and generating the N-term repayment schedule. */
module LoanService {
  import opened Outcomes
  import opened CreditDomain
  import opened LoanDomain

  datatype CreateLoanRequest = CreateLoanRequest(userId: nat, amount: real, term: int)

  /** The loan a request creates: PENDING, nothing repaid, no approval or
      activation time yet. */
  function NewLoan(req: CreateLoanRequest, id: nat): (loan: Loan)
    ensures loan.status == LoanStatus.Pending
    ensures loan.originalTerm == req.term && loan.remainingTerm == req.term
    ensures loan.amount == req.amount && loan.remainingAmount == req.amount
    ensures loan.remainingAmount + loan.totalPaidAmount == loan.amount
    ensures loan.approvedAt.None? && loan.activatedAt.None?
  {
    Loan(id, req.amount, req.term, req.term, LoanStatus.Pending, None, None, req.amount, 0.0)
  }

  /** The statuses the validator accepts, in the order it tries them. */
  const ValidLoanStatuses: seq<LoanStatus> :=
    [LoanStatus.Pending, LoanStatus.Approved, LoanStatus.Rejected,
     LoanStatus.Active, LoanStatus.Paid, LoanStatus.Defaulted]

  /** The validator's loop: does any listed status carry the name `s`? */
  function ListsStatus(list: seq<LoanStatus>, s: string): bool
  {
    if |list| == 0 then false else list[0].Name() == s || ListsStatus(list[1..], s)
  }

  lemma {:induction false} ListsStatusFinds(list: seq<LoanStatus>, s: string)
    ensures ListsStatus(list, s) <==> exists i :: 0 <= i < |list| && list[i].Name() == s
    decreases |list|
  {
    if |list| > 0 {
      ListsStatusFinds(list[1..], s);
      if ListsStatus(list[1..], s) {
        var i :| 0 <= i < |list[1..]| && list[1..][i].Name() == s;
        assert list[i + 1].Name() == s;
      }
      if exists i :: 0 <= i < |list| && list[i].Name() == s {
        var i :| 0 <= i < |list| && list[i].Name() == s;
        if i > 0 {
          assert list[1..][i - 1].Name() == s;
        }
      }
    }
  }

  /** A status string is valid exactly when it names one of the six loan
      statuses. */
  function IsValidLoanStatus(s: string): (ok: bool)
    ensures ok <==> exists st: LoanStatus :: st.Name() == s
  {
    ListsStatusFinds(ValidLoanStatuses, s);
    EveryStatusListed(s);
    ListsStatus(ValidLoanStatuses, s)
  }

  lemma EveryStatusListed(s: string)
    ensures (exists st: LoanStatus :: st.Name() == s) ==>
      exists i :: 0 <= i < |ValidLoanStatuses| && ValidLoanStatuses[i].Name() == s
  {
    if exists st: LoanStatus :: st.Name() == s {
      var st: LoanStatus :| st.Name() == s;
      assert ValidLoanStatuses[StatusIndex(st)].Name() == s;
    }
  }

  /** Where each status sits in the validator's list. */
  function StatusIndex(st: LoanStatus): (i: nat)
    ensures i < |ValidLoanStatuses| && ValidLoanStatuses[i] == st
  {
    match st
    case Pending => 0
    case Approved => 1
    case Rejected => 2
    case Active => 3
    case Paid => 4
    case Defaulted => 5
  }

  /** The `LoanStatus(status)` conversion, for a string the validator accepts. */
  function ParseLoanStatus(s: string): (r: Option<LoanStatus>)
    ensures r.Some? ==> r.value.Name() == s
    ensures r.Some? <==> IsValidLoanStatus(s)
  {
    if s == "PENDING" then Some(LoanStatus.Pending)
    else if s == "APPROVED" then Some(LoanStatus.Approved)
    else if s == "REJECTED" then Some(LoanStatus.Rejected)
    else if s == "ACTIVE" then Some(LoanStatus.Active)
    else if s == "PAID" then Some(LoanStatus.Paid)
    else if s == "DEFAULTED" then Some(LoanStatus.Defaulted)
    else None
  }

  /** Every status is accepted under its own name and read back as itself. */
  lemma LoanStatusRoundTrip(st: LoanStatus)
    ensures IsValidLoanStatus(st.Name())
    ensures ParseLoanStatus(st.Name()) == Some(st)
  {
  }

  /** Sets any valid status from any status, stamping the approval time on
      APPROVED and the activation time on ACTIVE; an unknown status string is
      refused and the loan left alone. */
  function UpdateLoanStatus(book: LoanBook, id: nat, status: string, now: Timestamp): (r: LoanStep<()>)
    ensures LoanById(book, id).None? ==> r == LoanStep(book, Err(NotFound))
    ensures LoanById(book, id).Some? && !IsValidLoanStatus(status) ==> r == LoanStep(book, Err(InvalidLoanStatus))
    ensures LoanById(book, id).Some? && IsValidLoanStatus(status) ==>
      var loan := LoanById(book, id).value;
      var updated := LoanById(r.book, id);
      && r.result == Ok(())
      && updated.Some?
      && updated.value.status.Name() == status
      && (status == "APPROVED" ==> updated.value.approvedAt == Some(now))
      && (status != "APPROVED" ==> updated.value.approvedAt == loan.approvedAt)
      && (status == "ACTIVE" ==> updated.value.activatedAt == Some(now))
      && (status != "ACTIVE" ==> updated.value.activatedAt == loan.activatedAt)
      && updated.value.(status := loan.status, approvedAt := loan.approvedAt, activatedAt := loan.activatedAt) == loan
    ensures forall other :: other != id ==> LoanById(r.book, other) == LoanById(book, other)
    ensures r.book.plans == book.plans && r.book.payments == book.payments
  {
    match LoanById(book, id)
    case None => LoanStep(book, Err(NotFound))
    case Some(loan) =>
      if !IsValidLoanStatus(status) then LoanStep(book, Err(InvalidLoanStatus))
      else
        var newStatus := ParseLoanStatus(status).value;
        var stamped :=
          if newStatus == LoanStatus.Approved then loan.(status := newStatus, approvedAt := Some(now))
          else if newStatus == LoanStatus.Active then loan.(status := newStatus, activatedAt := Some(now))
          else loan.(status := newStatus);
        LoanStep(book.(loans := book.loans[id - 1 := stamped]), Ok(()))
  }

  /** The schedule loop from entry `i` on, with `remaining` principal not yet
      scheduled: each entry takes the fixed monthly share, except entry
      `term`, which takes whatever principal remains. */
  function PlanFrom(loanId: nat, anchor: Timestamp, term: int, monthly: real, i: int, remaining: real): (plan: seq<RepaymentEntry>)
    requires 1 <= i
    ensures |plan| == if i > term then 0 else term - i + 1
    ensures forall k :: 0 <= k < |plan| ==>
      && plan[k].loanId == loanId
      && plan[k].installmentNum == i + k
      && plan[k].dueDate == MonthsAfter(anchor, i + k)
      && plan[k].amount == plan[k].principalPart
      && plan[k].status == "PENDING"
    ensures forall k :: 0 <= k < |plan| - 1 ==> plan[k].amount == monthly
    ensures |plan| > 0 ==> plan[|plan| - 1].amount == remaining - (|plan| - 1) as real * monthly
    ensures PlanTotal(plan) == if i > term then 0.0 else remaining
    decreases term - i
  {
    if i > term then []
    else
      var principal := if i == term then remaining else monthly;
      var entry := RepaymentEntry(loanId, i, MonthsAfter(anchor, i), principal, principal, "PENDING");
      var rest := PlanFrom(loanId, anchor, term, monthly, i + 1, remaining - principal);
      assert ([entry] + rest)[1..] == rest;
      [entry] + rest
  }

  /** `generateRepaymentPlan`: one entry per month of the original term, due
      that many months after activation. It reads the activation time, so it
      needs one. */
  function GenerateRepaymentPlan(loan: Loan): (plan: seq<RepaymentEntry>)
    requires loan.activatedAt.Some?
    ensures |plan| == if loan.originalTerm > 0 then loan.originalTerm else 0
    ensures forall k :: 0 <= k < |plan| ==>
      && plan[k].loanId == loan.id
      && plan[k].installmentNum == k + 1
      && plan[k].dueDate == MonthsAfter(loan.activatedAt.value, k + 1)
      && plan[k].amount == plan[k].principalPart
      && plan[k].status == "PENDING"
    ensures loan.originalTerm > 0 ==> PlanTotal(plan) == loan.amount
  {
    if loan.originalTerm <= 0 then []
    else
      var monthly := loan.amount / loan.originalTerm as real;
      PlanFrom(loan.id, loan.activatedAt.value, loan.originalTerm, monthly, 1, loan.amount)
  }

  /** Over exact reals the last entry, which takes the remaining principal,
      equals every other entry: each is the principal divided by the term. */
  lemma RepaymentSharesEqual(loan: Loan)
    requires loan.activatedAt.Some?
    requires loan.originalTerm > 0
    ensures var plan := GenerateRepaymentPlan(loan);
      forall k :: 0 <= k < |plan| ==> plan[k].amount == loan.amount / loan.originalTerm as real
  {
    var plan := GenerateRepaymentPlan(loan);
    var n := loan.originalTerm as real;
    var monthly := loan.amount / n;
    forall k | 0 <= k < |plan|
      ensures plan[k].amount == monthly
    {
      if k == |plan| - 1 {
        assert (|plan| - 1) as real == n - 1.0;
        LastShareIsEqual(loan.amount, n);
      }
    }
  }

  lemma LastShareIsEqual(principal: real, n: real)
    requires n > 0.0
    ensures principal - (n - 1.0) * (principal / n) == principal / n
  {
  }

  /** The loan is stored in its initial state. The repayment schedule is not
      generated here: it is anchored at the activation time, which a new loan
      does not have yet. */
  function CreateLoan(book: LoanBook, req: CreateLoanRequest): (r: LoanStep<Loan>)
    ensures r.result.Ok?
    ensures r.result.value == NewLoan(req, |book.loans| + 1)
    ensures LoanById(book, r.result.value.id).None?
    ensures LoanById(r.book, r.result.value.id) == Some(r.result.value)
    ensures forall id :: LoanById(book, id).Some? ==> LoanById(r.book, id) == LoanById(book, id)
    ensures r.book.loans == book.loans + [r.result.value]
    ensures r.book.plans == book.plans && r.book.payments == book.payments
  {
    var loan := NewLoan(req, |book.loans| + 1);
    LoanStep(book.(loans := book.loans + [loan]), Ok(loan))
  }

  /** `generateRepaymentPlan` run on a loan as stored: with no activation time
      the first entry's due date dereferences a nil pointer. */
  function RepaymentPlanAsWritten(loan: Loan): (r: Result<seq<RepaymentEntry>>)
    ensures r == Err(NilDereference) <==> loan.originalTerm >= 1 && loan.activatedAt.None?
    ensures r.Ok? ==> |r.value| == if loan.originalTerm > 0 then loan.originalTerm else 0
  {
    if loan.originalTerm < 1 then Ok([])
    else match loan.activatedAt
      case None => Err(NilDereference)
      case Some(_) => Ok(GenerateRepaymentPlan(loan))
  }

  /** `CreateLoan` as the source writes it: store the new loan, then generate
      its schedule at once. */
  function CreateLoanAsWritten(book: LoanBook, req: CreateLoanRequest): (r: LoanStep<Loan>)
    ensures r.book.loans == book.loans + [NewLoan(req, |book.loans| + 1)]
  {
    var loan := NewLoan(req, |book.loans| + 1);
    var stored := book.(loans := book.loans + [loan]);
    match RepaymentPlanAsWritten(loan)
    case Err(e) => LoanStep(stored, Err(e))
    case Ok(plan) => LoanStep(stored.(plans := stored.plans + plan), Ok(loan))
  }

  /** Any request with a term of at least one month crashes the as-written
      `CreateLoan` after the loan row has been stored, leaving a loan without
      a schedule; only a term of zero or less gets through. */
  lemma CreateLoanAsWrittenPanics(book: LoanBook, req: CreateLoanRequest)
    ensures var r := CreateLoanAsWritten(book, req);
      && (r.result == Err(NilDereference) <==> req.term >= 1)
      && |r.book.loans| == |book.loans| + 1
      && (req.term >= 1 ==> r.book.plans == book.plans)
  {
  }

  /** Activating a loan gives it the activation time the schedule needs,
      and the schedule then covers the full principal. */
  lemma ActivationEnablesSchedule(book: LoanBook, id: nat, now: Timestamp)
    requires LoanById(book, id).Some?
    ensures var r := UpdateLoanStatus(book, id, "ACTIVE", now);
      var loan := LoanById(r.book, id).value;
      && r.result.Ok?
      && loan.activatedAt == Some(now)
      && loan.status == LoanStatus.Active
      && (loan.originalTerm > 0 ==> PlanTotal(GenerateRepaymentPlan(loan)) == loan.amount)
  {
  }

  /** Status changes touch no balances, so every loan stays balanced. */
  lemma UpdateLoanStatusKeepsBalanced(book: LoanBook, id: nat, status: string, now: Timestamp)
    requires Balanced(book)
    ensures Balanced(UpdateLoanStatus(book, id, status, now).book)
  {
  }

  /** A new loan starts balanced, so creation keeps every loan balanced. */
  lemma CreateLoanKeepsBalanced(book: LoanBook, req: CreateLoanRequest)
    requires Balanced(book)
    ensures Balanced(CreateLoan(book, req).book)
  {
  }
}

=== FILE: outcomes.dfy ===
/** Failure-carrying values shared by the credit engine and the loan module.

    The Go code returns `error` values built from sentinels (`ErrInvalidAmount`,
    `ErrInsufficientCredit`, `ErrPaymentFailed`) or from `errors.New` strings;
    each distinct error a caller can observe becomes one constructor here.
    Every repository lookup miss collapses into `NotFound`. */
module Outcomes {

  datatype Option<+T> = None | Some(value: T)

  datatype Error =
    | InvalidAmount                      // ErrInvalidAmount
    | NotFound                           // repository GetByID found no row
    | NotApproved                        // "credit application not approved"
    | InsufficientCredit                 // ErrInsufficientCredit
    | UnknownPaymentStatus(status: string)
    | UnknownInstallmentStatus(status: string)
    | PaymentFailed                      // ErrPaymentFailed
    | UnsupportedCurrency                // handler gate
    | UnsupportedPaymentMethod           // handler gate
    | InvalidLoanStatus                  // "invalid loan status"
    | LoanNotActive                      // "loan is not active"
    | AmountExceedsRemaining             // "payment amount exceeds remaining loan amount"
    | NilDereference                     // a Go runtime panic on a nil pointer

  datatype Result<+T> = Ok(value: T) | Err(error: Error)
}
